=== FILE: README.md ===
# AquaSystem account, report and water-schedule core in Dafny

This project models the server core of AquaSystem, a water utility's back
end (ASP.NET, C#). It covers these parts:

- **Account service** (`UserService`). Login with a JWT access token and a rotating refresh token, refresh, role creation, user registration, and issue of an eight-digit password-reset code.
- **Account controller** (`Account`). Role assignment and removal, with the guard against removing one's own `Admin` role. The reset-password and forgot-password endpoints. The shape of the refresh-token reply.
- **Subscriber controller** (`Subscribers`). Masking of a subscriber's name, and the payment-history pipeline: newest first, the first fifty, then one payment per receipt number.
- **Report store** (`Reports`). Citizen reports with images and a state. Create, update, change-state and delete.
- **Water-schedule store** (`RegistrationWater`). Registrations linked to neighbourhoods through a relation table. Get, create, update and delete.

Each service call is a pure function from the store (and explicit inputs) to
a reply and the store it leaves behind. These become explicit parameters:

- the clock (`now`, in whole minutes, always later than `DateTime.MinValue`);
- the random values: token ids, refresh tokens, the reset-code draw, fresh GUIDs;
- the password checks of the identity library;
- the image-upload service.

Files:

| file | module | contents |
|---|---|---|
| `wrappers.dfy` | `Wrappers` | `Option`, `Result` |
| `userstore.dfy` | `UserStore` | the user and role tables, first-match lookups, the table invariant |
| `tokens.dfy` | `Tokens` | claims, opaque signed tokens, decimal printing of reset codes |
| `userservice.dfy` | `UserService` | login, refresh, create role, register, reset-code issue |
| `account.dfy` | `Account` | assign/remove role, reset password, forgot password, refresh endpoint |
| `subscribers.dfy` | `Subscribers` | name masking, subscriber lookup, payment history |
| `reports.dfy` | `Reports` | report store |
| `water.dfy` | `RegistrationWater` | water-schedule store |

### Where the model follows the code rather than the written description

- **An access token that does not verify makes the refresh a 500, not a 401.** `ValidateToken` throws, and the catch-all at `LOGIN/Services/UserService.cs:402-411` answers 500. `UserService.Refresh` models this.
- **The refresh looks the user up by email, using the value of the Name claim.** That claim carries the user name (`UserService.cs:343-356`). So a login followed by a refresh works only for users whose email equals their user name (`UserService.LoginThenRefresh`).
- **Creating a report when no "no asignado" state exists fails.** The report gets a freshly generated state id, and the required foreign key from reports to states (`Migrations/20250509165337_init.Designer.cs:579-585`) rejects it. Creation is then a 500 and stores nothing (`Reports.CreateReportWithoutDefaultStateFails`).
- **A failed water-schedule create can still store something.** The registration is saved before its relation rows (`RegistrationWaterService.cs:115-128`). When the second save fails, the reply is 500 but the registration stays (`RegistrationWater.FailedCreateKeepsRegistration`).

## Model

| member | source | states |
|---|---|---|
| UserStore.Find | LOGIN/Services/UserService.cs:126 | the index found satisfies the predicate and no earlier row does; None exactly when no row does |
| UserStore.FindByEmail | LOGIN/Services/UserService.cs:356 | finds the first row with that email, None exactly when no row has it |
| UserStore.FindById | LOGIN/Controllers/AccountController.cs:127 | finds a row with that id, None exactly when no row has it |
| UserStore.FindByName | LOGIN/Services/UserService.cs:126 | finds a row with that user name, None exactly when no row has it |
| UserStore.SetUserKeepsValid | LOGIN/Services/UserService.cs:163-165 | writing back one row with unchanged id, user name, email and roles keeps the table invariant (unique keys, distinct registered roles, no blank role name registered) |
| UserStore.AppendUserKeepsValid | LOGIN/Services/UserService.cs:76-92 | appending a row with new keys and distinct roles, registered once the new non-blank roles are added, keeps the table invariant |
| UserStore.EmailIdentifiesUser | LOGIN/Services/UserService.cs:64-74 | under the invariant, two rows with the same email are the same row |
| UserStore.FindByIdStable | LOGIN/Controllers/AccountController.cs:127-159 | rows that keep their ids keep every id lookup's answer |
| Tokens.FindFirst | LOGIN/Services/UserService.cs:343 | returns the value of the first claim of the requested type, None exactly when there is none |
| Tokens.AuthClaims | LOGIN/Services/UserService.cs:138-149 | name, token id and user id claims first, then one role claim per role, in order |
| Tokens.AuthClaimsValues | LOGIN/Services/UserService.cs:138-149 | reading the claims back gives exactly one name, one jti, one user id, and role claims equal to the user's roles |
| Tokens.DecimalString | LOGIN/Services/UserService.cs:264 | `ToString()` of a non-negative number is a non-empty string of decimal digits |
| Tokens.Sign | LOGIN/Services/UserService.cs:151-157 | a token this server writes reads back, under signature-only validation, exactly the claims it was written with |
| Tokens.Extract | LOGIN/Services/UserService.cs:323-336 | validation fails exactly for a token that does not verify; a signed token gives back its claims whatever its expiry |
| Tokens.DecimalRoundTrip | LOGIN/Services/UserService.cs:264 | the printed number parses back to itself |
| Tokens.ResetCodeIsEightDigits | LOGIN/Services/UserService.cs:263-264 | every draw of `Next(10000000, 99999999)` prints as exactly eight digits that parse back to the draw |
| UserService.WithRefreshToken | LOGIN/Services/UserService.cs:163-164 | sets the refresh token and its expiry and leaves id, name, email, roles, hash and reset state alone |
| UserService.Login | LOGIN/Services/UserService.cs:113-194 | succeeds iff the name exists and the password checks; failure is 400 with no change; success stores the fresh refresh token with expiry now + RefreshTokenExpiry on that row only and returns the user's name, email, roles and a token over its claims |
| UserService.LoginDoesNotRevealUnknownUser | LOGIN/Services/UserService.cs:117-182 | an unknown name and a wrong password give the identical reply and store |
| UserService.LoginTokenClaims | LOGIN/Services/UserService.cs:138-160 | the login token's first Name claim is the user name, and its role claims equal the roles in the reply |
| UserService.LoginKeepsValid | LOGIN/Services/UserService.cs:163-165 | login keeps the table invariant |
| UserService.Refresh | LOGIN/Services/UserService.cs:338-412 | 500 iff the token does not verify; otherwise Ok iff a Name claim exists, a user has that value as email, the presented refresh token equals the stored one and the stored expiry is not before now (so a user never given a refresh token is refused); every refusal is 401 with no change; success rotates the refresh token on that row only |
| UserService.RefreshIgnoresAccessTokenExpiry | LOGIN/Services/UserService.cs:327-335 | an expired and a live access token with the same claims give the same refresh outcome |
| UserService.RefreshExpiryBoundary | LOGIN/Services/UserService.cs:358 | a stored expiry equal to now is accepted, one a minute earlier is refused |
| UserService.RefreshTokenAccepted | LOGIN/Services/UserService.cs:358 | accepted iff the presented refresh token equals the stored one and the stored expiry is not before now; a never-set expiry (`DateTime.MinValue`) is never accepted |
| UserService.RefreshNeedsEmailEqualToUserName | LOGIN/Services/UserService.cs:343-356 | a successful refresh implies some user's email equals the token's Name claim |
| UserService.FindByEmailStable | LOGIN/Services/UserService.cs:356 | rows that keep their emails keep every email lookup's answer |
| UserService.RefreshRotationRevokesOldToken | LOGIN/Services/UserService.cs:383-385 | after a successful refresh, replaying the old refresh token is refused with 401 |
| UserService.LoginThenRefresh | LOGIN/Services/UserService.cs:140-358 | a refresh right after login with the returned tokens succeeds iff the user's email equals its user name, and then hands out the next fresh token and the same roles |
| UserService.RefreshKeepsValid | LOGIN/Services/UserService.cs:383-385 | refresh keeps the table invariant |
| UserService.CreateRole | LOGIN/Services/UserService.cs:196-216 | "exists" iff the role is registered; otherwise a 400 iff the name is empty or white space (the identity library's role validator); Ok iff the name is new and not blank; refusals change nothing; success adds exactly that role and touches no user |
| UserService.AddRoles | LOGIN/Services/UserService.cs:83-92 | keeps the held roles as a prefix, holds exactly held ∪ requested, and stays duplicate-free |
| UserService.Register | LOGIN/Services/UserService.cs:52-111 | 400 "email taken" iff the email is in use; otherwise 400 iff the name is taken, is empty or has a character outside the identity library's default allowed set, or the password is refused, with no change; Ok iff none of those and no role name is blank; when the user is created the row is appended with status 1, the creation time and the hash; missing roles are created; a blank role name is a 500 that leaves the user stored with the roles before it, otherwise the user holds exactly the requested roles once each |
| UserService.FirstBlank | LOGIN/Services/UserService.cs:83-92 | the position of the first empty or white-space role name, or the length when there is none |
| UserService.RegisterKeepsValid | LOGIN/Services/UserService.cs:52-111 | registration keeps the table invariant |
| UserService.RegisterThenLogin | LOGIN/Services/UserService.cs:52-194 | a user just registered logs in with a password the password verifier accepts for its hash, and gets its email and exactly the requested roles |
| UserService.CreateRoleKeepsValid | LOGIN/Services/UserService.cs:196-216 | role creation keeps the table invariant |
| UserService.GenerateResetToken | LOGIN/Services/UserService.cs:255-273 | no code and no change iff the email is unknown; otherwise an eight-digit code that parses to the draw is stored on that row only, expiring 15 minutes from now |
| Account.AssignRole | LOGIN/Controllers/AccountController.cs:118-148 | checks empty name (400), unknown user (404), unknown role (404) in that order, each iff its condition; a registered blank role name (impossible in a valid store) is a 500; 400 iff the user already holds the role; Ok iff the name is non-empty and not blank, the user and role exist and the user does not hold the role yet; success appends the role to that user only |
| Account.Without | LOGIN/Controllers/AccountController.cs:172 | the role list minus exactly that name, duplicate-free if the input was |
| Account.RemoveRole | LOGIN/Controllers/AccountController.cs:155-182 | 404 iff the user is unknown; SelfAdminRemoval (400) iff the caller removes exactly "Admin" from itself; past that guard, 500 iff the role name is blank, 400 iff the user does not hold the role, Ok iff it holds it; success removes the role from that user only; refusals change nothing |
| Account.RemoveRoleGuardIsNarrow | LOGIN/Controllers/AccountController.cs:165-172 | in a valid store, removing a held Admin role from another user, or another held role from oneself, succeeds and the role is gone |
| Account.AssignRoleKeepsValid | LOGIN/Controllers/AccountController.cs:138 | assignment keeps the table invariant |
| Account.RemoveRoleKeepsValid | LOGIN/Controllers/AccountController.cs:172 | removal keeps the table invariant |
| Account.WithoutAppended | LOGIN/Controllers/AccountController.cs:138-172 | removing a role that was appended to a list without it gives the list back |
| Account.AssignThenRemoveRestores | LOGIN/Controllers/AccountController.cs:118-182 | assigning a role and removing it again, unless it is the caller's own Admin role, restores the store |
| Account.ResetPassword | LOGIN/Controllers/AccountController.cs:184-212 | "invalid token" iff the email is unknown, the code differs, or a stored expiry is before now; past that check, 400 iff the new password is refused and Ok iff it is accepted; success leaves that row equal to the old one with the new hash and the code and expiry cleared, and every other row unchanged |
| Account.ResetCodeAccepted | LOGIN/Controllers/AccountController.cs:193 | accepted only for the stored code; with no stored expiry the code is accepted, otherwise iff the expiry is not before now |
| Account.ResetCodeIsSingleUse | LOGIN/Controllers/AccountController.cs:206-209 | replaying a code after a successful reset is refused |
| Account.IssuedCodeResetsPassword | LOGIN/Services/UserService.cs:264-269 | a freshly issued code resets the password of its email within fifteen minutes |
| Account.ResetPasswordKeepsValid | LOGIN/Controllers/AccountController.cs:207-209 | reset keeps the table invariant |
| Account.ForgotPassword | LOGIN/Controllers/AccountController.cs:214-241 | always 200 with Status true; a mail is sent iff the email is known, to that email, with the issued code; that code and an expiry fifteen minutes from now are stored on that row only |
| Account.ForgotPasswordDoesNotRevealEmail | LOGIN/Controllers/AccountController.cs:221-240 | a known and an unknown email give the same reply, only the known one gets mail |
| Account.RefreshEndpoint | LOGIN/Controllers/AccountController.cs:66-77 | passes the service's status code and data through, with Status true in the body |
| Account.RefusedRefreshReportsTrueStatus | LOGIN/Controllers/AccountController.cs:71-76 | a refused refresh answers 401 or 500 with Status true |
| Account.RefreshEndpointKeepsValid | LOGIN/Controllers/AccountController.cs:66-77 | the refresh endpoint keeps the table invariant |
| Subscribers.Split | LOGIN/Controllers/ApiSubscribersControllers.cs:122 | at least one piece, no piece contains the separator, one piece iff the separator is absent |
| Subscribers.JoinSplit | LOGIN/Controllers/ApiSubscribersControllers.cs:122 | joining the pieces with the separator gives back the input |
| Subscribers.MaskString | LOGIN/Controllers/ApiSubscribersControllers.cs:128-133 | same length, first character kept, last kept when longer than three, every other character '*' |
| Subscribers.MaskStringIdempotent | LOGIN/Controllers/ApiSubscribersControllers.cs:128-133 | masking a masked word changes nothing |
| Subscribers.MaskName | LOGIN/Controllers/ApiSubscribersControllers.cs:120-136 | a name without a space is returned unchanged; otherwise the first two words masked around one space; fails exactly when a space is present and the first or the second piece is empty |
| Subscribers.MaskNameOfWords | LOGIN/Controllers/ApiSubscribersControllers.cs:122-135 | for "first last rest" the result is exactly the two masked words, as long as "first last", differing from the input only by '*' |
| Subscribers.MaskNameFailsOnEmptyPiece | LOGIN/Controllers/ApiSubscribersControllers.cs:125-131 | a double space after the first word makes masking fail |
| Subscribers.MaskNameFailsOnLeadingSpace | LOGIN/Controllers/ApiSubscribersControllers.cs:122-131 | a leading space makes masking fail |
| Subscribers.LookupSubscriber | LOGIN/Controllers/ApiSubscribersControllers.cs:20-44 | 404 iff no record, 500 iff masking fails, otherwise key and arrears unchanged with the masked name |
| Subscribers.LookupSubscriberOfWords | LOGIN/Controllers/ApiSubscribersControllers.cs:20-44 | a subscriber named "first last rest" is shown with key and arrears unchanged and exactly its first two words masked around one space |
| Subscribers.LookupSubscriberOfOneWord | LOGIN/Controllers/ApiSubscribersControllers.cs:20-44 | a subscriber whose name has no space is shown with key, name and arrears unchanged |
| Subscribers.SortByDateDesc | LOGIN/Controllers/ApiSubscribersControllers.cs:101 | a permutation of the input, newest first |
| Subscribers.SortIsStable | LOGIN/Controllers/ApiSubscribersControllers.cs:101 | payments with the same date keep their input order |
| Subscribers.Take | LOGIN/Controllers/ApiSubscribersControllers.cs:104 | the prefix of length min(n, size) |
| Subscribers.KeptPositions | LOGIN/Controllers/ApiSubscribersControllers.cs:107-110 | the kept payments are exactly those at first-occurrence positions, in increasing position order |
| Subscribers.FirstOccurrences | LOGIN/Controllers/ApiSubscribersControllers.cs:107-110 | grouping by receipt never lengthens the list |
| Subscribers.FirstOccurrencesDistinct | LOGIN/Controllers/ApiSubscribersControllers.cs:107-110 | no receipt number is kept twice |
| Subscribers.FirstOccurrencesCover | LOGIN/Controllers/ApiSubscribersControllers.cs:107-110 | every receipt number of the input is kept |
| Subscribers.FirstOccurrencesSorted | LOGIN/Controllers/ApiSubscribersControllers.cs:101-110 | grouping keeps newest-first order |
| Subscribers.FirstPerReceipt | LOGIN/Controllers/ApiSubscribersControllers.cs:107-110 | the one-pass loop computes the first payment per receipt, with distinct and complete receipts |
| Subscribers.FilteredHistory | LOGIN/Controllers/ApiSubscribersControllers.cs:101-110 | at most fifty payments, newest first, distinct receipts, and exactly the receipts of the fifty newest |
| Subscribers.GetHistory | LOGIN/Controllers/ApiSubscribersControllers.cs:86-118 | 404 iff the history is missing or empty; otherwise at most 50 payments, newest first, distinct receipts covering all receipts of the fifty newest |
| Subscribers.FilteredHistoryKeepsFirstInOrder | LOGIN/Controllers/ApiSubscribersControllers.cs:104-110 | each reply entry is the first payment of its receipt among the fifty newest, in their order |
| Reports.UploadAll | LOGIN/Services/ReportService.cs:40-54 | fails iff some upload fails; otherwise one result per file in file order |
| Reports.DefaultStateId | LOGIN/Services/ReportService.cs:57-71 | the id of a state named "no asignado" (the first in the model's order), or the fresh id when there is none |
| Reports.CreateReport | LOGIN/Services/ReportService.cs:33-112 | Ok iff every upload succeeds and the chosen state exists; the report is stored under the fresh id with the request fields, one public id and URL per file in order, and the default state; any failure is 500 with no change |
| Reports.CreateReportUsesDefaultState | LOGIN/Services/ReportService.cs:57-71 | with a "no asignado" state present and uploads succeeding, the report is created in the first such state in the model's order |
| Reports.CreateReportWithoutDefaultStateFails | LOGIN/Services/ReportService.cs:71-75 | without a "no asignado" state, creation is a 500 with no change |
| Reports.UpdateReport | LOGIN/Services/ReportService.cs:183-254 | 404 iff the id is unknown; for a known id, 500 iff an upload fails or the state does not exist, Ok otherwise; text fields and state id overwritten, id and date kept, image lists replaced only when files are given; failures change nothing |
| Reports.ChangeState | LOGIN/Services/ReportService.cs:304-356 | 404 for an unknown report, else 404 for an unknown state, each iff; Ok iff both exist; success changes only that report's state id |
| Reports.ChangeStateBackRestores | LOGIN/Services/ReportService.cs:320-332 | moving a report to another state and back restores the store |
| Reports.DeleteReport | LOGIN/Services/ReportService.cs:256-297 | 404 iff unknown; otherwise exactly that report is removed, the rest untouched |
| Reports.OperationsKeepValid | LOGIN/Migrations/20250509165337_init.Designer.cs:579-585 | every operation keeps reports under their own id, one URL per public id, and every state reference valid |
| Reports.CreateThenDeleteRestores | LOGIN/Services/ReportService.cs:74-273 | deleting a freshly created report gives back the original store |
| RegistrationWater.Linked | LOGIN/Services/RegistrationWaterService.cs:50-56 | exactly the neighbourhoods related to the registration |
| RegistrationWater.GetById | LOGIN/Services/RegistrationWaterService.cs:29-76 | 404 iff unknown; otherwise the registration and exactly its related neighbourhoods |
| RegistrationWater.Create | LOGIN/Services/RegistrationWaterService.cs:109-153 | the registration is always stored under the fresh id; Ok iff the supplied ids are distinct existing neighbourhoods, adding exactly one row per id; otherwise 500 with relations unchanged |
| RegistrationWater.Update | LOGIN/Services/RegistrationWaterService.cs:155-216 | 404 iff unknown; Ok iff the ids are acceptable; date and observations overwritten, relations of the registration exactly the supplied ids, other rows unchanged; failures change nothing |
| RegistrationWater.Delete | LOGIN/Services/RegistrationWaterService.cs:218-261 | 404 iff unknown; otherwise removes the registration and exactly its relation rows |
| RegistrationWater.OperationsKeepValid | LOGIN/Migrations/20250509165337_init.Designer.cs:180-194 | every operation keeps registrations under their own id and every relation row pointing at an existing registration and neighbourhood |
| RegistrationWater.UpdateThenGet | LOGIN/Services/RegistrationWaterService.cs:174-189 | reading back after an update shows the new date, observations and exactly the supplied neighbourhoods |
| RegistrationWater.UpdateIdempotent | LOGIN/Services/RegistrationWaterService.cs:174-192 | applying the same update twice equals applying it once |
| RegistrationWater.FailedCreateKeepsRegistration | LOGIN/Services/RegistrationWaterService.cs:115-128 | a refused neighbourhood id gives a 500, yet the registration is stored with no neighbourhoods |

## Left out

- JWT signing and HMAC-SHA256 validation (`UserService.cs:308-336`). A token is either `Signed(claims, validTo)`, which reads back its claims, or `Unverifiable`. Issuer and audience are not modelled.
- Random values. The `jti` GUID, the 64-byte refresh token, the `Random` reset-code draw and fresh entity GUIDs are parameters. The freshness of GUIDs is a precondition.
- Identity library internals. Password hashing and verification are an oracle (`verify`, or `hash`/`newHash` as an `Option`). Name normalisation, lockout and the identity-library reset token at `AccountController.cs:198` are not modelled. User names, emails and role names compare exactly. The user validator's unique-email option is off by default and is not modelled.
- UserStore.FindByEmail: the identity library's email lookup uses a single-result query, which throws (a 500) when two rows share an email. The model takes the first match. The two differ only on stores that break the table invariant, which registration never produces.
- `UserService.Login`: the 404 branch at `UserService.cs:128-136` cannot be reached, because sign-in has just found the same name. The 500 from an exception is not modelled, so a non-numeric `RefreshTokenExpiry` setting is not modelled.
- `UserService.Refresh`: the exception from a non-numeric `RefreshTokenExpiry` setting is not modelled.
- `UserService.Register`: a request whose roles are null, or that holds a null role name (`RoleExistsAsync` throws, a 500), is not modelled. The 50-character limits and `[Required]` checks on the request are model-state checks and are not modelled. `FirstName`/`LastName` are stored but not stated in the contract.
- UserService.CreateRole: a null role name cannot be represented. In the source `RoleExistsAsync(null)` at `UserService.cs:198` throws before any validator runs, and nothing catches it, so the reply is a 500 unless model-state validation refuses the request first.
- Account.RemoveRole: the guard at `AccountController.cs:166` compares the role name with "Admin" exactly, but the identity library removes roles by normalised name. An admin who asks to remove "admin" from itself passes the guard and loses its Admin role. The model compares exactly, so it does not show this.
- Subscribers.MaskName and Subscribers.MaskString: C# strings are UTF-16, so `Length`, `str[0]` and `str[^1]` at `ApiSubscribersControllers.cs:128-133` count code units. The model works on Unicode scalar values. A name with a character outside the Basic Multilingual Plane therefore masks differently: C# can keep half a surrogate pair and gives a longer result. A null `nombreabonado` (`fullName.Split` throws, a 500) cannot be represented, since the name is a plain string.
- The order of a user's role list is the model's own: assignment appends, and `Tokens.AuthClaims` emits role claims in that order. The source reads roles through `GetRolesAsync` (`UserService.cs:145`), a join with no ordering. No property depends on the order.
- Reports.DefaultStateId: the lookup of the "no asignado" state at `ReportService.cs:57` runs in the database, whose collation normally ignores case, so "No Asignado" would match. The model compares names exactly and finds only the lower-case spelling. The query has no ordering and state names are not unique (`Migrations/20250509165337_init.Designer.cs:268-283`), so with several "no asignado" states the database picks one in no defined order; the model takes the first in its own order.
- `GetRolesAsync`, `GetRolesByIdAsync`, `CheckEmailExistsAsync`, `CheckUserNameExistsAsync` and `UserService.ResetPasswordAsync`. These are lookups with no logic of their own, or are unused by the controllers modelled.
- Sending the reset mail. `Account.ForgotPassword` returns the mail to be sent; a failure of the mail service (the 500 at `AccountController.cs:242-250`) is not modelled.
- `Account.ResetPassword`: the 400 for an invalid model state is not modelled.
- HTTP and JSON plumbing. The subscriber proxy and deserialisation are an `Option` record. Malformed JSON (a 500) is not modelled. `GetAbonadoCompleto` and `GetComment` are proxies with no logic.
- The subscriber `History` and `Suscriber` types are not part of this model. A payment is a receipt number, a payment date (an integer instant) and an opaque rest of row. Arrears are an opaque string.
- Image upload (Cloudinary) is an external function from file to `Option<(publicId, url)>`. `GetImageUrl` is left out because it only builds a URL.
- `GetAllReportsAsync` and `GetAllAsync` only list the store. `GetReportByIdAsync` is a lookup with no logic.
- `Reports.CreateReport`: a request with null `Files` (a `NullReferenceException`, 500) is not modelled; files are a sequence.
- Database failures other than the foreign and composite keys are not modelled, nor are concurrency between requests and the cascade deletes from states and neighbourhoods.
- `RegistrationWater.Update`: the relation rows are removed and re-added in one save. Re-adding a pair that was just removed is taken to succeed.

=== FILE: account.dfy ===
/**
 * The account controller's own logic: role assignment and removal with the
 * guard against an administrator removing its own Admin role, the
 * password-reset endpoints, and the shaping of the refresh-token response.
 */
module Account {
  import opened Wrappers
  import opened UserStore
  import opened Tokens
  import UserService

  datatype Error =
    | RoleNameRequired   // empty role name in the request
    | UserNotFound       // "Usuario no encontrado"
    | RoleNotFound       // "Rol no encontrado"
    | SelfAdminRemoval   // the caller tried to drop its own Admin role
    | IdentityFailure    // the identity library refused the change
    | InvalidToken       // unknown email, wrong or expired reset code
    | InternalError      // an exception escaping to the framework

  function StatusCode(e: Error): int
  {
    match e
    case RoleNameRequired => 400
    case UserNotFound => 404
    case RoleNotFound => 404
    case SelfAdminRemoval => 400
    case IdentityFailure => 400
    case InvalidToken => 400
    case InternalError => 500
  }

  datatype Step = Step(reply: Result<(), Error>, store: Store)

  /** The role name the self-removal guard protects, compared case-sensitively. */
  const AdminRole: string := "Admin"

  /**
   * `AssignRole`: the role name must be non-empty, the user must exist and
   * the role must be registered, checked in that order. The identity
   * library's role check then throws on a blank name (only reachable when
   * such a role is registered, which `Valid` excludes) and refuses a role
   * the user already holds.
   */
  function AssignRole(st: Store, userId: string, roleName: string): (r: Step)
    ensures r.reply.Err? ==> r.store == st
    ensures roleName == "" <==> r.reply == Err(RoleNameRequired)
    ensures r.reply == Err(UserNotFound) <==>
              roleName != "" && forall j :: 0 <= j < |st.users| ==> st.users[j].id != userId
    ensures r.reply == Err(RoleNotFound) <==>
              roleName != "" && FindById(st.users, userId).Some? && roleName !in st.roles
    ensures r.reply == Err(InternalError) <==>
              roleName != "" && FindById(st.users, userId).Some? && roleName in st.roles && Blank(roleName)
    ensures r.reply == Err(IdentityFailure) <==>
              && roleName != "" && FindById(st.users, userId).Some? && roleName in st.roles && !Blank(roleName)
              && roleName in st.users[FindById(st.users, userId).value].roles
    ensures r.reply.Ok? <==>
              && roleName != "" && FindById(st.users, userId).Some? && roleName in st.roles && !Blank(roleName)
              && roleName !in st.users[FindById(st.users, userId).value].roles
    ensures r.reply.Ok? ==>
              var i := FindById(st.users, userId).value;
              && roleName !in st.users[i].roles
              && OnlyRowChanged(st, r.store, i)
              && r.store.users[i] == st.users[i].(roles := st.users[i].roles + [roleName])
  {
    if roleName == "" then Step(Err(RoleNameRequired), st)
    else match FindById(st.users, userId)
      case None => Step(Err(UserNotFound), st)
      case Some(i) =>
        if roleName !in st.roles then Step(Err(RoleNotFound), st)
        else if Blank(roleName) then Step(Err(InternalError), st)
        else if roleName in st.users[i].roles then Step(Err(IdentityFailure), st)
        else Step(Ok(()), SetUser(st, i, st.users[i].(roles := st.users[i].roles + [roleName])))
  }

  /** The role list with one name dropped (`RemoveFromRoleAsync`). */
  function Without(roles: seq<string>, name: string): (r: seq<string>)
    ensures forall x :: x in r <==> x in roles && x != name
    ensures |r| <= |roles|
    ensures Distinct(roles) ==> Distinct(r)
  {
    if |roles| == 0 then []
    else if roles[0] == name then Without(roles[1..], name)
    else
      assert Distinct(roles) ==> roles[0] !in roles[1..];
      [roles[0]] + Without(roles[1..], name)
  }

  /**
   * `RemoveRole`. `caller` is the name of the authenticated user. An unknown
   * user is 404; the caller removing the exact role "Admin" from itself is
   * 400. The identity library's role check throws on a blank name (a 500),
   * and a role the user does not hold is refused with 400.
   */
  function RemoveRole(st: Store, caller: string, userId: string, roleName: string): (r: Step)
    ensures r.reply.Err? ==> r.store == st
    ensures r.reply == Err(UserNotFound) <==> forall j :: 0 <= j < |st.users| ==> st.users[j].id != userId
    ensures r.reply == Err(SelfAdminRemoval) <==>
              FindById(st.users, userId).Some? && caller == st.users[FindById(st.users, userId).value].userName
              && roleName == AdminRole
    ensures r.reply == Err(InternalError) <==>
              FindById(st.users, userId).Some?
              && (caller != st.users[FindById(st.users, userId).value].userName || roleName != AdminRole)
              && Blank(roleName)
    ensures r.reply == Err(IdentityFailure) <==>
              FindById(st.users, userId).Some?
              && (caller != st.users[FindById(st.users, userId).value].userName || roleName != AdminRole)
              && !Blank(roleName) && roleName !in st.users[FindById(st.users, userId).value].roles
    ensures r.reply.Ok? <==>
              FindById(st.users, userId).Some?
              && (caller != st.users[FindById(st.users, userId).value].userName || roleName != AdminRole)
              && !Blank(roleName) && roleName in st.users[FindById(st.users, userId).value].roles
    ensures r.reply.Ok? ==>
              var i := FindById(st.users, userId).value;
              && roleName in st.users[i].roles
              && OnlyRowChanged(st, r.store, i)
              && r.store.users[i] == st.users[i].(roles := Without(st.users[i].roles, roleName))
  {
    match FindById(st.users, userId)
    case None => Step(Err(UserNotFound), st)
    case Some(i) =>
      var u := st.users[i];
      if caller == u.userName && roleName == AdminRole then Step(Err(SelfAdminRemoval), st)
      else if Blank(roleName) then Step(Err(InternalError), st)
      else if roleName !in u.roles then Step(Err(IdentityFailure), st)
      else Step(Ok(()), SetUser(st, i, u.(roles := Without(u.roles, roleName))))
  }

  /**
   * The guard is narrow: an administrator may remove Admin from another
   * user, and any role other than exactly "Admin" from itself.
   */
  lemma RemoveRoleGuardIsNarrow(st: Store, caller: string, userId: string, roleName: string)
    requires Valid(st)
    requires FindById(st.users, userId).Some?
    requires roleName in st.users[FindById(st.users, userId).value].roles
    requires caller != st.users[FindById(st.users, userId).value].userName || roleName != AdminRole
    ensures RemoveRole(st, caller, userId, roleName).reply.Ok?
    ensures roleName !in RemoveRole(st, caller, userId, roleName).store.users[FindById(st.users, userId).value].roles
  {
  }

  /** Dropping a name that was appended to a list not containing it gives the list back. */
  lemma {:induction false} WithoutAppended(roles: seq<string>, name: string)
    requires name !in roles
    ensures Without(roles + [name], name) == roles
  {
    if |roles| > 0 {
      assert (roles + [name])[1..] == roles[1..] + [name];
      WithoutAppended(roles[1..], name);
    } else {
      assert [name][1..] == [];
    }
  }

  /**
   * Assigning a role and then removing it again (by anyone but the user
   * itself when the role is Admin) restores the store.
   */
  lemma AssignThenRemoveRestores(st: Store, caller: string, userId: string, roleName: string)
    requires AssignRole(st, userId, roleName).reply.Ok?
    requires caller != st.users[FindById(st.users, userId).value].userName || roleName != AdminRole
    ensures var st1 := AssignRole(st, userId, roleName).store;
            RemoveRole(st1, caller, userId, roleName) == Step(Ok(()), st)
  {
    var i := FindById(st.users, userId).value;
    var st1 := AssignRole(st, userId, roleName).store;
    assert forall j :: 0 <= j < |st.users| ==> st1.users[j].id == st.users[j].id;
    assert FindById(st1.users, userId) == Some(i) by {
      FindByIdStable(st.users, st1.users, userId);
    }
    WithoutAppended(st.users[i].roles, roleName);
    assert st1.users[i := st1.users[i].(roles := st.users[i].roles)] == st.users;
  }

  lemma AssignRoleKeepsValid(st: Store, userId: string, roleName: string)
    requires Valid(st)
    ensures Valid(AssignRole(st, userId, roleName).store)
  {
    var r := AssignRole(st, userId, roleName);
    if r.reply.Ok? {
      var i := FindById(st.users, userId).value;
      var roles := st.users[i].roles;
      assert Distinct(roles + [roleName]) by {
        assert forall k :: 0 <= k < |roles| ==> (roles + [roleName])[k] == roles[k];
      }
    }
  }

  lemma RemoveRoleKeepsValid(st: Store, caller: string, userId: string, roleName: string)
    requires Valid(st)
    ensures Valid(RemoveRole(st, caller, userId, roleName).store)
  {
  }

  // ---- password reset ------------------------------------------------------------

  /**
   * The reset-code check: the stored code equals the presented one and the
   * stored expiry, if any, is not earlier than now. A missing expiry passes,
   * because a comparison with a null `DateTime?` is false.
   */
  function ResetCodeAccepted(u: User, token: string, now: Clock): (accepted: bool)
    ensures accepted ==> u.resetToken == Some(token)
    ensures u.resetToken == Some(token) && u.resetTokenExpires.None? ==> accepted
    ensures u.resetToken == Some(token) && u.resetTokenExpires.Some? ==> (accepted <==> now <= u.resetTokenExpires.value)
  {
    u.resetToken == Some(token) && !(u.resetTokenExpires.Some? && u.resetTokenExpires.value < now)
  }

  /**
   * `ResetPassword`. `newHash` is the identity library's verdict on the new
   * password: the hash it stores, or None when its policy refuses it. On
   * success the code and its expiry are cleared.
   */
  function ResetPassword(st: Store, now: Clock, email: string, token: string, newHash: Option<string>): (r: Step)
    ensures r.reply.Err? ==> r.store == st
    ensures r.reply == Err(InvalidToken) <==>
              || FindByEmail(st.users, email).None?
              || !ResetCodeAccepted(st.users[FindByEmail(st.users, email).value], token, now)
    ensures r.reply == Err(IdentityFailure) <==> r.reply != Err(InvalidToken) && newHash.None?
    ensures r.reply.Ok? <==> r.reply != Err(InvalidToken) && newHash.Some?
    ensures r.reply.Ok? ==>
              var i := FindByEmail(st.users, email).value;
              && OnlyRowChanged(st, r.store, i)
              && r.store.users[i] == st.users[i].(passwordHash := newHash.value, resetToken := None,
                                                   resetTokenExpires := None)
  {
    match FindByEmail(st.users, email)
    case None => Step(Err(InvalidToken), st)
    case Some(i) =>
      var u := st.users[i];
      if !ResetCodeAccepted(u, token, now) then Step(Err(InvalidToken), st)
      else if newHash.None? then Step(Err(IdentityFailure), st)
      else Step(Ok(()), SetUser(st, i, u.(passwordHash := newHash.value, resetToken := None, resetTokenExpires := None)))
  }

  /** A reset code works once: replaying it after a successful reset is refused. */
  lemma ResetCodeIsSingleUse(st: Store, now: Clock, later: Clock, email: string, token: string,
                             newHash: Option<string>, otherHash: Option<string>)
    requires ResetPassword(st, now, email, token, newHash).reply.Ok?
    ensures ResetPassword(ResetPassword(st, now, email, token, newHash).store, later, email, token, otherHash).reply
         == Err(InvalidToken)
  {
  }

  /** A code issued for an email is accepted for that email until its fifteen minutes have passed. */
  lemma IssuedCodeResetsPassword(st: Store, email: string, now: Clock, later: Clock, code: nat, newHash: string)
    requires ResetCodeLow <= code < ResetCodeHigh
    requires exists j :: 0 <= j < |st.users| && st.users[j].email == email
    requires later <= now + UserService.ResetCodeLifetime
    ensures var issued := UserService.GenerateResetToken(st, email, now, code);
            ResetPassword(issued.store, later, email, issued.token.value, Some(newHash)).reply.Ok?
  {
  }

  lemma ResetPasswordKeepsValid(st: Store, now: Clock, email: string, token: string, newHash: Option<string>)
    requires Valid(st)
    ensures Valid(ResetPassword(st, now, email, token, newHash).store)
  {
  }

  /** The reset code mailed to the user. */
  datatype Mail = Mail(to: string, code: string)

  /** The HTTP reply of the forgot-password endpoint. */
  datatype ForgotReply = ForgotReply(statusCode: int, status: bool)

  datatype ForgotOutcome = ForgotOutcome(reply: ForgotReply, mail: Option<Mail>, store: Store)

  /**
   * `ForgotPassword`: issues a code through the service and mails it when
   * the email is known; the reply is 200 with the same body either way.
   */
  function ForgotPassword(st: Store, email: string, now: Clock, code: nat): (r: ForgotOutcome)
    requires ResetCodeLow <= code < ResetCodeHigh
    ensures r.reply == ForgotReply(200, true)
    ensures r.mail.Some? <==> exists j :: 0 <= j < |st.users| && st.users[j].email == email
    ensures r.mail.Some? ==> r.mail.value.to == email && IsDigits(r.mail.value.code)
                             && ParseDecimal(r.mail.value.code) == code
    ensures r.mail.None? ==> r.store == st
    ensures r.mail.Some? ==>
              var i := FindByEmail(st.users, email).value;
              && OnlyRowChanged(st, r.store, i)
              && r.store.users[i] == st.users[i].(resetToken := Some(r.mail.value.code),
                                                   resetTokenExpires := Some(now + UserService.ResetCodeLifetime))
  {
    var issued := UserService.GenerateResetToken(st, email, now, code);
    match issued.token
    case None => ForgotOutcome(ForgotReply(200, true), None, issued.store)
    case Some(t) => ForgotOutcome(ForgotReply(200, true), Some(Mail(email, t)), issued.store)
  }

  /** The forgot-password reply does not reveal whether the email is registered. */
  lemma ForgotPasswordDoesNotRevealEmail(st: Store, known: string, unknown: string, now: Clock, code: nat)
    requires ResetCodeLow <= code < ResetCodeHigh
    requires exists j :: 0 <= j < |st.users| && st.users[j].email == known
    requires forall j :: 0 <= j < |st.users| ==> st.users[j].email != unknown
    ensures ForgotPassword(st, known, now, code).reply == ForgotPassword(st, unknown, now, code).reply
    ensures ForgotPassword(st, known, now, code).mail.Some? && ForgotPassword(st, unknown, now, code).mail.None?
  {
  }

  // ---- refresh-token endpoint ------------------------------------------------------

  /** The anonymous body of the refresh endpoint: `Status`, `Message` and `Data`. */
  datatype RefreshBody = RefreshBody(status: bool, data: Option<UserService.LoginResponse>)

  datatype RefreshOutcome = RefreshOutcome(statusCode: int, body: RefreshBody, store: Store)

  /**
   * `RefreshToken`: passes the service's status code through but always
   * reports `Status = true` in the body, even for a refused refresh.
   */
  function RefreshEndpoint(st: Store, cfg: UserService.Config, now: Clock, token: AccessToken,
                           presented: Option<string>, jti: string, nextToken: string): (r: RefreshOutcome)
    ensures r.body.status
    ensures var s := UserService.Refresh(st, cfg, now, token, presented, jti, nextToken);
            && r.store == s.store
            && (s.reply.Ok? ==> r.statusCode == 200 && r.body.data == Some(s.reply.value))
            && (s.reply.Err? ==> r.statusCode == UserService.StatusCode(s.reply.error) && r.body.data.None?)
  {
    var s := UserService.Refresh(st, cfg, now, token, presented, jti, nextToken);
    match s.reply
    case Ok(resp) => RefreshOutcome(200, RefreshBody(true, Some(resp)), s.store)
    case Err(e) => RefreshOutcome(UserService.StatusCode(e), RefreshBody(true, None), s.store)
  }

  /** The endpoint leaves the user table valid, as the service call it wraps does. */
  lemma RefreshEndpointKeepsValid(st: Store, cfg: UserService.Config, now: Clock, token: AccessToken,
                                  presented: Option<string>, jti: string, nextToken: string)
    requires Valid(st)
    ensures Valid(RefreshEndpoint(st, cfg, now, token, presented, jti, nextToken).store)
  {
    UserService.RefreshKeepsValid(st, cfg, now, token, presented, jti, nextToken);
  }

  /** A refused refresh still says `Status = true`, next to a 401 or 500 status code. */
  lemma RefusedRefreshReportsTrueStatus(st: Store, cfg: UserService.Config, now: Clock, token: AccessToken,
                                        presented: Option<string>, jti: string, nextToken: string)
    requires UserService.Refresh(st, cfg, now, token, presented, jti, nextToken).reply.Err?
    ensures var r := RefreshEndpoint(st, cfg, now, token, presented, jti, nextToken);
            r.body.status && (r.statusCode == 401 || r.statusCode == 500)
  {
  }
}

=== FILE: reports.dfy ===
/**
 * The citizen-report store: reports keyed by id, the table of report
 * states they refer to, and the create / update / change-state / delete
 * operations. Images go to an external upload service that hands back a
 * public id and a URL per file.
 */
module Reports {
  import opened Wrappers

  type Guid = string
  type Time = int

  datatype State = State(id: Guid, name: string)

  datatype Report = Report(
    id: Guid,
    key: string,
    name: string,
    dni: string,
    cellphone: string,
    date: Time,
    report: string,
    direction: string,
    observation: string,
    publicIds: seq<string>,
    urls: seq<string>,
    stateId: Guid)

  /** Reports by id, and the state table in storage order. */
  datatype ReportStore = ReportStore(reports: map<Guid, Report>, states: seq<State>)

  /** The fields a client supplies for a report (`CreateReportDto` / `UpdateReportDto` less files and ids). */
  datatype ReportFields = ReportFields(
    key: string, name: string, dni: string, cellphone: string, date: Time,
    report: string, direction: string, observation: string)

  /** An uploaded image file, handed as is to the upload service. */
  type ImageFile = string

  /** What the upload service returns for one file: its public id and its secure URL. */
  datatype Upload = Upload(publicId: string, url: string)

  /** The upload service: None when the upload throws. */
  type Uploader = ImageFile -> Option<Upload>

  datatype Error = ReportNotFound | StateNotFound | ServerError

  function StatusCode(e: Error): int
  {
    match e
    case ReportNotFound => 404
    case StateNotFound => 404
    case ServerError => 500
  }

  datatype Step = Step(reply: Result<Report, Error>, store: ReportStore)

  /** The name of the state a new report starts in. */
  const DefaultStateName: string := "no asignado"

  predicate StateExists(states: seq<State>, id: Guid)
  {
    exists k :: 0 <= k < |states| && states[k].id == id
  }

  /**
   * The store invariant: every report is stored under its own id, has one
   * URL per public id, and refers to an existing state (the required
   * foreign key from reports to states).
   */
  ghost predicate Valid(st: ReportStore)
  {
    forall id :: id in st.reports ==>
      && st.reports[id].id == id
      && |st.reports[id].publicIds| == |st.reports[id].urls|
      && StateExists(st.states, st.reports[id].stateId)
  }

  /**
   * The upload loop: files are uploaded one after the other; the first
   * failure aborts it. On success there is one result per file, in file order.
   */
  function UploadAll(files: seq<ImageFile>, upload: Uploader): (r: Option<seq<Upload>>)
    ensures r.None? <==> exists k :: 0 <= k < |files| && upload(files[k]).None?
    ensures r.Some? ==> |r.value| == |files| && forall k :: 0 <= k < |files| ==> Some(r.value[k]) == upload(files[k])
  {
    if |files| == 0 then Some([])
    else match upload(files[0])
      case None => None
      case Some(u) =>
        match UploadAll(files[1..], upload)
        case None =>
          assert forall k :: 0 <= k < |files| - 1 ==> files[1..][k] == files[k + 1];
          None
        case Some(us) =>
          assert forall k :: 1 <= k < |files| ==> files[k] == files[1..][k - 1];
          Some([u] + us)
  }

  function PublicIds(us: seq<Upload>): (r: seq<string>)
    ensures |r| == |us| && forall k :: 0 <= k < |us| ==> r[k] == us[k].publicId
  {
    seq(|us|, k requires 0 <= k < |us| => us[k].publicId)
  }

  function Urls(us: seq<Upload>): (r: seq<string>)
    ensures |r| == |us| && forall k :: 0 <= k < |us| ==> r[k] == us[k].url
  {
    seq(|us|, k requires 0 <= k < |us| => us[k].url)
  }

  /**
   * `FirstOrDefault(x => x.Name == "no asignado")?.Id ?? Guid.NewGuid()`:
   * the id of the first state with the default name, else `freshId`.
   */
  function DefaultStateId(states: seq<State>, freshId: Guid): (id: Guid)
    ensures (exists k :: 0 <= k < |states| && states[k].name == DefaultStateName) ==>
              exists k :: 0 <= k < |states| && states[k].name == DefaultStateName && states[k].id == id
                          && forall j :: 0 <= j < k ==> states[j].name != DefaultStateName
    ensures (forall k :: 0 <= k < |states| ==> states[k].name != DefaultStateName) ==> id == freshId
  {
    if |states| == 0 then freshId
    else if states[0].name == DefaultStateName then states[0].id
    else
      var id := DefaultStateId(states[1..], freshId);
      assert forall k :: 1 <= k < |states| ==> states[k] == states[1..][k - 1];
      id
  }

  /**
   * `CreateReportAsync`. The files are uploaded, the report starts in the
   * default state, and it is saved under `freshId`. An upload failure, or a
   * state id that names no state (which the foreign key refuses), is a 500
   * and stores nothing.
   */
  function CreateReport(st: ReportStore, fields: ReportFields, files: seq<ImageFile>, upload: Uploader,
                        freshId: Guid, freshStateId: Guid): (r: Step)
    requires freshId !in st.reports
    ensures r.reply.Err? ==> r.reply.error == ServerError && r.store == st
    ensures r.reply.Ok? <==>
              (forall k :: 0 <= k < |files| ==> upload(files[k]).Some?)
              && StateExists(st.states, DefaultStateId(st.states, freshStateId))
    ensures r.reply.Ok? ==>
              var rep := r.reply.value;
              && r.store == st.(reports := st.reports[freshId := rep])
              && rep.id == freshId
              && rep.stateId == DefaultStateId(st.states, freshStateId)
              && |rep.publicIds| == |files| && |rep.urls| == |files|
              && (forall k :: 0 <= k < |files| ==> upload(files[k]) == Some(Upload(rep.publicIds[k], rep.urls[k])))
              && rep.key == fields.key && rep.name == fields.name && rep.dni == fields.dni
              && rep.cellphone == fields.cellphone && rep.date == fields.date && rep.report == fields.report
              && rep.direction == fields.direction && rep.observation == fields.observation
  {
    match UploadAll(files, upload)
    case None => Step(Err(ServerError), st)
    case Some(us) =>
      var stateId := DefaultStateId(st.states, freshStateId);
      if !StateExists(st.states, stateId) then Step(Err(ServerError), st)
      else
        var rep := Report(freshId, fields.key, fields.name, fields.dni, fields.cellphone, fields.date,
                          fields.report, fields.direction, fields.observation, PublicIds(us), Urls(us), stateId);
        Step(Ok(rep), st.(reports := st.reports[freshId := rep]))
  }

  /**
   * With a "no asignado" state present, a report whose uploads succeed is
   * created in the first such state.
   */
  lemma CreateReportUsesDefaultState(st: ReportStore, fields: ReportFields, files: seq<ImageFile>,
                                     upload: Uploader, freshId: Guid, freshStateId: Guid, k: nat)
    requires freshId !in st.reports
    requires k < |st.states| && st.states[k].name == DefaultStateName
    requires forall j :: 0 <= j < k ==> st.states[j].name != DefaultStateName
    requires forall f :: 0 <= f < |files| ==> upload(files[f]).Some?
    ensures CreateReport(st, fields, files, upload, freshId, freshStateId).reply.Ok?
    ensures CreateReport(st, fields, files, upload, freshId, freshStateId).reply.value.stateId == st.states[k].id
  {
  }

  /**
   * Without a "no asignado" state the report would get a freshly generated
   * state id; that id names no state, so the foreign key makes the save fail
   * and creation is always a 500.
   */
  lemma CreateReportWithoutDefaultStateFails(st: ReportStore, fields: ReportFields, files: seq<ImageFile>,
                                             upload: Uploader, freshId: Guid, freshStateId: Guid)
    requires freshId !in st.reports
    requires forall k :: 0 <= k < |st.states| ==> st.states[k].name != DefaultStateName
    requires !StateExists(st.states, freshStateId)
    ensures CreateReport(st, fields, files, upload, freshId, freshStateId) == Step(Err(ServerError), st)
  {
  }

  /** `UpdateReportDto`: `Files` may be null, meaning "keep the current images". */
  datatype UpdateRequest = UpdateRequest(id: Guid, fields: ReportFields, files: Option<seq<ImageFile>>, stateId: Guid)

  /**
   * `UpdateReportAsync`. An unknown id is 404. The text fields and the state
   * id are overwritten (the date and the id are not); the image lists are
   * replaced only when files are supplied. An upload failure or an unknown
   * state id is a 500 and saves nothing.
   */
  function UpdateReport(st: ReportStore, req: UpdateRequest, upload: Uploader): (r: Step)
    ensures r.reply.Err? ==> r.store == st
    ensures r.reply == Err(ReportNotFound) <==> req.id !in st.reports
    ensures r.reply == Err(ServerError) <==>
              && req.id in st.reports
              && !(&& (req.files.Some? ==> forall k :: 0 <= k < |req.files.value| ==> upload(req.files.value[k]).Some?)
                   && StateExists(st.states, req.stateId))
    ensures r.reply.Ok? <==>
              && req.id in st.reports
              && (req.files.Some? ==> forall k :: 0 <= k < |req.files.value| ==> upload(req.files.value[k]).Some?)
              && StateExists(st.states, req.stateId)
    ensures r.reply.Ok? ==>
              var prev := st.reports[req.id];
              var rep := r.reply.value;
              && r.store == st.(reports := st.reports[req.id := rep])
              && rep.id == prev.id && rep.date == prev.date
              && rep.key == req.fields.key && rep.name == req.fields.name && rep.dni == req.fields.dni
              && rep.cellphone == req.fields.cellphone && rep.report == req.fields.report
              && rep.direction == req.fields.direction && rep.observation == req.fields.observation
              && rep.stateId == req.stateId
              && (req.files.None? ==> rep.publicIds == prev.publicIds && rep.urls == prev.urls)
              && (req.files.Some? ==>
                    && |rep.publicIds| == |req.files.value| && |rep.urls| == |req.files.value|
                    && forall k :: 0 <= k < |req.files.value| ==>
                         upload(req.files.value[k]) == Some(Upload(rep.publicIds[k], rep.urls[k])))
  {
    if req.id !in st.reports then Step(Err(ReportNotFound), st)
    else
      var prev := st.reports[req.id];
      var f := req.fields;
      var edited := prev.(key := f.key, name := f.name, dni := f.dni, cellphone := f.cellphone,
                         report := f.report, direction := f.direction, observation := f.observation,
                         stateId := req.stateId);
      var images: Option<(seq<string>, seq<string>)> :=
        match req.files
        case None => Some((prev.publicIds, prev.urls))
        case Some(files) =>
          match UploadAll(files, upload)
          case None => None
          case Some(us) => Some((PublicIds(us), Urls(us)));
      if images.None? || !StateExists(st.states, req.stateId) then Step(Err(ServerError), st)
      else
        var rep := edited.(publicIds := images.value.0, urls := images.value.1);
        Step(Ok(rep), st.(reports := st.reports[req.id := rep]))
  }

  /**
   * `ChangeStateReportAsync`: the report is looked up first, then the state;
   * on success only that report's state id changes.
   */
  function ChangeState(st: ReportStore, id: Guid, stateId: Guid): (r: Step)
    ensures r.reply.Err? ==> r.store == st
    ensures r.reply == Err(ReportNotFound) <==> id !in st.reports
    ensures r.reply == Err(StateNotFound) <==> id in st.reports && !StateExists(st.states, stateId)
    ensures r.reply.Ok? <==> id in st.reports && StateExists(st.states, stateId)
    ensures r.reply.Ok? ==>
              && r.reply.value == st.reports[id].(stateId := stateId)
              && r.store.states == st.states
              && r.store.reports.Keys == st.reports.Keys
              && r.store.reports[id] == r.reply.value
              && forall other :: other in st.reports && other != id ==> r.store.reports[other] == st.reports[other]
  {
    if id !in st.reports then Step(Err(ReportNotFound), st)
    else if !StateExists(st.states, stateId) then Step(Err(StateNotFound), st)
    else
      var rep := st.reports[id].(stateId := stateId);
      Step(Ok(rep), st.(reports := st.reports[id := rep]))
  }

  /** Moving a report to another state and back to its previous one restores the store. */
  lemma ChangeStateBackRestores(st: ReportStore, id: Guid, stateId: Guid)
    requires Valid(st)
    requires ChangeState(st, id, stateId).reply.Ok?
    ensures ChangeState(ChangeState(st, id, stateId).store, id, st.reports[id].stateId) == Step(Ok(st.reports[id]), st)
  {
  }

  /** `DeleteReportAsync`: 404 for an unknown id, otherwise exactly that report is removed. */
  function DeleteReport(st: ReportStore, id: Guid): (r: Step)
    ensures r.reply.Err? <==> id !in st.reports
    ensures r.reply.Err? ==> r.reply.error == ReportNotFound && r.store == st
    ensures r.reply.Ok? ==>
              && r.reply.value == st.reports[id]
              && r.store.states == st.states
              && r.store.reports.Keys == st.reports.Keys - {id}
              && forall other :: other in r.store.reports ==> r.store.reports[other] == st.reports[other]
  {
    if id !in st.reports then Step(Err(ReportNotFound), st)
    else Step(Ok(st.reports[id]), st.(reports := st.reports - {id}))
  }

  /** Every operation keeps the store invariant. */
  lemma OperationsKeepValid(st: ReportStore, fields: ReportFields, files: seq<ImageFile>, upload: Uploader,
                            freshId: Guid, freshStateId: Guid, req: UpdateRequest, id: Guid, stateId: Guid)
    requires Valid(st)
    requires freshId !in st.reports
    ensures Valid(CreateReport(st, fields, files, upload, freshId, freshStateId).store)
    ensures Valid(UpdateReport(st, req, upload).store)
    ensures Valid(ChangeState(st, id, stateId).store)
    ensures Valid(DeleteReport(st, id).store)
  {
    CreateReportKeepsValid(st, fields, files, upload, freshId, freshStateId);
    UpdateReportKeepsValid(st, req, upload);
    ChangeStateKeepsValid(st, id, stateId);
    DeleteReportKeepsValid(st, id);
  }

  lemma CreateReportKeepsValid(st: ReportStore, fields: ReportFields, files: seq<ImageFile>, upload: Uploader,
                               freshId: Guid, freshStateId: Guid)
    requires Valid(st)
    requires freshId !in st.reports
    ensures Valid(CreateReport(st, fields, files, upload, freshId, freshStateId).store)
  {
  }

  lemma UpdateReportKeepsValid(st: ReportStore, req: UpdateRequest, upload: Uploader)
    requires Valid(st)
    ensures Valid(UpdateReport(st, req, upload).store)
  {
  }

  lemma ChangeStateKeepsValid(st: ReportStore, id: Guid, stateId: Guid)
    requires Valid(st)
    ensures Valid(ChangeState(st, id, stateId).store)
  {
  }

  lemma DeleteReportKeepsValid(st: ReportStore, id: Guid)
    requires Valid(st)
    ensures Valid(DeleteReport(st, id).store)
  {
  }

  /** Deleting a report after creating it restores the store. */
  lemma CreateThenDeleteRestores(st: ReportStore, fields: ReportFields, files: seq<ImageFile>, upload: Uploader,
                                 freshId: Guid, freshStateId: Guid)
    requires freshId !in st.reports
    requires CreateReport(st, fields, files, upload, freshId, freshStateId).reply.Ok?
    ensures DeleteReport(CreateReport(st, fields, files, upload, freshId, freshStateId).store, freshId).store == st
  {
  }
}

=== FILE: subscribers.dfy ===
/**
 * Shaping of the data the subscriber/billing system returns: the masking
 * of a subscriber's name for the public lookup, and the filtering of a
 * subscriber's payment history (newest first, at most fifty entries, one
 * entry per receipt number).
 */
module Subscribers {
  import opened Wrappers

  // ---- String.Split(char) ---------------------------------------------------------

  /** `s.Split(sep)`: every piece between separators, empty pieces included. */
  function Split(s: string, sep: char): (parts: seq<string>)
    ensures |parts| >= 1
    ensures forall k :: 0 <= k < |parts| ==> sep !in parts[k]
    ensures sep !in s ==> parts == [s]
    ensures sep in s ==> |parts| >= 2
  {
    if |s| == 0 then [""]
    else
      var rest := Split(s[1..], sep);
      assert s == [s[0]] + s[1..];
      if s[0] == sep then [""] + rest
      else [[s[0]] + rest[0]] + rest[1..]
  }

  /** `string.Join(sep, parts)`: the inverse of `Split`. */
  function Join(parts: seq<string>, sep: char): string
    requires |parts| >= 1
  {
    if |parts| == 1 then parts[0] else parts[0] + [sep] + Join(parts[1..], sep)
  }

  /** Splitting loses nothing: joining the pieces back gives the original string. */
  lemma {:induction false} JoinSplit(s: string, sep: char)
    ensures Join(Split(s, sep), sep) == s
  {
    if |s| > 0 {
      var rest := Split(s[1..], sep);
      JoinSplit(s[1..], sep);
      if s[0] == sep {
        assert ([""] + rest)[1..] == rest;
      } else if |rest| > 1 {
        var parts := [[s[0]] + rest[0]] + rest[1..];
        assert parts[1..] == rest[1..];
      }
    }
  }

  /** A word without the separator, then the separator, splits off as the first piece. */
  lemma {:induction false} SplitAfterWord(w: string, t: string, sep: char)
    requires sep !in w
    ensures Split(w + [sep] + t, sep) == [w] + Split(t, sep)
  {
    if |w| > 0 {
      assert (w + [sep] + t)[1..] == w[1..] + [sep] + t;
      SplitAfterWord(w[1..], t, sep);
      assert [w[0]] + w[1..] == w;
    } else {
      assert w + [sep] + t == [sep] + t;
    }
  }

  /** A word followed by nothing or by the separator is the first piece. */
  lemma SplitFirstWord(w: string, t: string, sep: char)
    requires sep !in w
    requires |t| == 0 || t[0] == sep
    ensures Split(w + t, sep)[0] == w
  {
    if |t| == 0 {
      assert w + t == w;
    } else {
      assert w + t == w + [sep] + t[1..];
      SplitAfterWord(w, t[1..], sep);
    }
  }

  // ---- name masking ---------------------------------------------------------------

  function Stars(n: nat): (s: string)
    ensures |s| == n && forall k :: 0 <= k < n ==> s[k] == '*'
  {
    seq(n, _ => '*')
  }

  /**
   * The local `MaskString`: the first character is kept, and for strings
   * longer than three the last one too; every other character becomes '*'.
   * It reads `str[0]`, so the source cannot call it on an empty string.
   */
  function MaskString(str: string): (m: string)
    requires |str| > 0
    ensures |m| == |str|
    ensures m[0] == str[0]
    ensures |str| > 3 ==> m[|m| - 1] == str[|str| - 1]
    ensures forall k :: 0 < k < |str| && !(|str| > 3 && k == |str| - 1) ==> m[k] == '*'
  {
    if |str| <= 3 then [str[0]] + Stars(|str| - 1)
    else [str[0]] + Stars(|str| - 2) + [str[|str| - 1]]
  }

  /** Masking is idempotent: a masked string masks to itself. */
  lemma MaskStringIdempotent(str: string)
    requires |str| > 0
    ensures MaskString(MaskString(str)) == MaskString(str)
  {
  }

  /**
   * `MaskName`. A name with no space comes back unchanged. Otherwise the
   * first two space-separated pieces are masked and joined by one space and
   * the rest is dropped; an empty piece among those two (a leading space, or
   * two spaces in a row) makes `MaskString` index past the end, which the
   * caller reports as a server error (None).
   */
  function MaskName(fullName: string): (r: Option<string>)
    ensures ' ' !in fullName ==> r == Some(fullName)
    ensures r.None? <==> ' ' in fullName && (Split(fullName, ' ')[0] == "" || Split(fullName, ' ')[1] == "")
    ensures r.Some? && ' ' in fullName ==>
              var parts := Split(fullName, ' ');
              && |r.value| == |parts[0]| + 1 + |parts[1]|
              && r.value[|parts[0]|] == ' '
              && r.value[0] == fullName[0]
  {
    var parts := Split(fullName, ' ');
    if |parts| < 2 then Some(fullName)
    else if parts[0] == "" || parts[1] == "" then None
    else Some(MaskString(parts[0]) + " " + MaskString(parts[1]))
  }

  /**
   * The masked name of "first last rest…" (first and last non-empty words)
   * is exactly as long as "first last", keeps its first character and the
   * space, and differs from the input only where it shows '*'.
   */
  lemma MaskNameOfWords(first: string, last: string, tail: string)
    requires |first| > 0 && |last| > 0
    requires ' ' !in first && ' ' !in last
    requires |tail| == 0 || tail[0] == ' '
    ensures var fullName := first + " " + last + tail;
            var r := MaskName(fullName);
            && r == Some(MaskString(first) + " " + MaskString(last))
            && |r.value| == |first| + 1 + |last|
            && r.value[0] == first[0]
            && r.value[|first|] == ' '
            && forall k :: 0 <= k < |r.value| ==> r.value[k] == fullName[k] || r.value[k] == '*'
  {
    var fullName := first + " " + last + tail;
    assert fullName == first + [' '] + (last + tail);
    SplitAfterWord(first, last + tail, ' ');
    SplitFirstWord(last, tail, ' ');
    var m := MaskString(first) + " " + MaskString(last);
    forall k | 0 <= k < |m|
      ensures m[k] == fullName[k] || m[k] == '*'
    {
      if k < |first| {
        assert fullName[k] == first[k];
      } else if k > |first| {
        assert fullName[k] == last[k - |first| - 1];
      }
    }
  }

  /** A double space after the first word makes masking fail. */
  lemma MaskNameFailsOnEmptyPiece(first: string, rest: string)
    requires ' ' !in first
    ensures MaskName(first + " " + " " + rest).None?
  {
    assert first + " " + " " + rest == first + [' '] + ([' '] + rest);
    SplitAfterWord(first, [' '] + rest, ' ');
    assert [' '] + rest == [] + [' '] + rest;
    SplitAfterWord([], rest, ' ');
  }

  /** A leading space makes masking fail: the first word is empty. */
  lemma MaskNameFailsOnLeadingSpace(rest: string)
    ensures MaskName([' '] + rest).None?
  {
    assert [' '] + rest == [] + [' '] + rest;
    SplitAfterWord([], rest, ' ');
  }

  // ---- subscriber lookup ----------------------------------------------------------

  /** The fields of the subscriber record the public lookup returns (`clave`, `nombreabonado`, `totalMora`). */
  datatype Subscriber = Subscriber(key: string, name: string, totalArrears: string)

  datatype SubscriberView = SubscriberView(key: string, maskedName: string, totalArrears: string)

  datatype LookupReply = SubscriberNotFound | MaskingFailed | Found(view: SubscriberView)

  function StatusCode(r: LookupReply): int
  {
    match r
    case SubscriberNotFound => 404
    case MaskingFailed => 500
    case Found(_) => 200
  }

  /** `GetAbonado`: 404 without a record, otherwise the record with its name masked. */
  function LookupSubscriber(record: Option<Subscriber>): (r: LookupReply)
    ensures r.SubscriberNotFound? <==> record.None?
    ensures r.MaskingFailed? <==> record.Some? && MaskName(record.value.name).None?
    ensures r.Found? ==> r.view.key == record.value.key && r.view.totalArrears == record.value.totalArrears
                         && Some(r.view.maskedName) == MaskName(record.value.name)
  {
    match record
    case None => SubscriberNotFound
    case Some(s) =>
      match MaskName(s.name)
      case None => MaskingFailed
      case Some(m) => Found(SubscriberView(s.key, m, s.totalArrears))
  }

  /** A subscriber named "first last ..." is shown with exactly its first two words masked. */
  lemma LookupSubscriberOfWords(key: string, first: string, last: string, tail: string, arrears: string)
    requires |first| > 0 && |last| > 0
    requires ' ' !in first && ' ' !in last
    requires |tail| == 0 || tail[0] == ' '
    ensures LookupSubscriber(Some(Subscriber(key, first + " " + last + tail, arrears)))
         == Found(SubscriberView(key, MaskString(first) + " " + MaskString(last), arrears))
  {
    MaskNameOfWords(first, last, tail);
  }

  /** A subscriber whose name has no space is shown with the name unchanged. */
  lemma LookupSubscriberOfOneWord(key: string, name: string, arrears: string)
    requires ' ' !in name
    ensures LookupSubscriber(Some(Subscriber(key, name, arrears))) == Found(SubscriberView(key, name, arrears))
  {
  }

  // ---- payment history ------------------------------------------------------------

  /** One payment of the history (`recibo`, `fechaPago`, and the rest of the row). */
  datatype Payment = Payment(receipt: string, paidAt: int, row: string)

  const HistoryLimit: nat := 50

  ghost predicate SortedDesc(s: seq<Payment>)
  {
    forall i, j :: 0 <= i < j < |s| ==> s[i].paidAt >= s[j].paidAt
  }

  /** The payments of one date, in their order. */
  function OnDate(s: seq<Payment>, d: int): seq<Payment>
  {
    if |s| == 0 then []
    else (if s[0].paidAt == d then [s[0]] else []) + OnDate(s[1..], d)
  }

  /** Places `x` after every payment newer than it and before the rest. */
  function Insert(x: Payment, s: seq<Payment>): (r: seq<Payment>)
    ensures multiset(r) == multiset(s) + multiset{x}
  {
    if |s| == 0 then [x]
    else if s[0].paidAt <= x.paidAt then [x] + s
    else
      assert s == [s[0]] + s[1..];
      [s[0]] + Insert(x, s[1..])
  }

  lemma {:induction false} InsertSorted(x: Payment, s: seq<Payment>)
    requires SortedDesc(s)
    ensures SortedDesc(Insert(x, s))
  {
    if |s| > 0 && s[0].paidAt > x.paidAt {
      var t := Insert(x, s[1..]);
      InsertSorted(x, s[1..]);
      forall y | y in t
        ensures y.paidAt <= s[0].paidAt
      {
        assert y in multiset(t);
        if y != x {
          assert y in s[1..];
        }
      }
      assert Insert(x, s) == [s[0]] + t;
    }
  }

  /** `OrderByDescending(h => h.fechaPago)`: a stable insertion sort, newest first. */
  function SortByDateDesc(s: seq<Payment>): (r: seq<Payment>)
    ensures multiset(r) == multiset(s)
    ensures SortedDesc(r)
  {
    if |s| == 0 then []
    else
      assert s == [s[0]] + s[1..];
      InsertSorted(s[0], SortByDateDesc(s[1..]));
      Insert(s[0], SortByDateDesc(s[1..]))
  }

  lemma {:induction false} InsertStable(x: Payment, s: seq<Payment>, d: int)
    ensures OnDate(Insert(x, s), d) == OnDate([x] + s, d)
  {
    if |s| > 0 && s[0].paidAt > x.paidAt {
      InsertStable(x, s[1..], d);
      assert ([s[0]] + Insert(x, s[1..]))[1..] == Insert(x, s[1..]);
      assert ([x] + s[1..])[1..] == s[1..];
      assert ([x] + s)[1..] == s;
      assert s[1..] == s[1..];
      assert OnDate(s, d) == (if s[0].paidAt == d then [s[0]] else []) + OnDate(s[1..], d);
    }
  }

  /** The sort is stable: payments of the same date keep their original relative order. */
  lemma {:induction false} SortIsStable(s: seq<Payment>, d: int)
    ensures OnDate(SortByDateDesc(s), d) == OnDate(s, d)
  {
    if |s| > 0 {
      InsertStable(s[0], SortByDateDesc(s[1..]), d);
      SortIsStable(s[1..], d);
      assert ([s[0]] + SortByDateDesc(s[1..]))[1..] == SortByDateDesc(s[1..]);
    }
  }

  /** `Take(n)`: the first `n` entries, or all of them when there are fewer. */
  function Take(s: seq<Payment>, n: nat): (r: seq<Payment>)
    ensures |r| == if |s| <= n then |s| else n
    ensures r == s[..|r|]
  {
    if |s| <= n then s else s[..n]
  }

  function Receipts(s: seq<Payment>): set<string>
  {
    set i | 0 <= i < |s| :: s[i].receipt
  }

  /** Position `i` holds the first payment of its receipt number. */
  ghost predicate IsFirst(s: seq<Payment>, i: int)
  {
    0 <= i < |s| && forall j :: 0 <= j < i ==> s[j].receipt != s[i].receipt
  }

  ghost predicate DistinctReceipts(s: seq<Payment>)
  {
    forall i, j :: 0 <= i < j < |s| ==> s[i].receipt != s[j].receipt
  }

  /**
   * `GroupBy(h => h.recibo).Select(g => g.First())`: groups come out in the
   * order their keys first appear, each represented by its first element.
   */
  function FirstOccurrences(s: seq<Payment>): (r: seq<Payment>)
    ensures |r| <= |s|
  {
    if |s| == 0 then []
    else
      var p := s[..|s| - 1];
      FirstOccurrences(p) + if s[|s| - 1].receipt in Receipts(p) then [] else [s[|s| - 1]]
  }

  /** The positions `FirstOccurrences` keeps, in increasing order. */
  ghost function Kept(s: seq<Payment>): seq<nat>
  {
    if |s| == 0 then []
    else
      var p := s[..|s| - 1];
      Kept(p) + if s[|s| - 1].receipt in Receipts(p) then [] else [|s| - 1]
  }

  /**
   * `FirstOccurrences(s)` lists `s` at the positions `Kept(s)`; those positions
   * increase and are exactly the positions holding the first payment of
   * their receipt.
   */
  lemma {:induction false} KeptPositions(s: seq<Payment>)
    ensures |Kept(s)| == |FirstOccurrences(s)|
    ensures forall k :: 0 <= k < |Kept(s)| ==> Kept(s)[k] < |s| && FirstOccurrences(s)[k] == s[Kept(s)[k]]
    ensures forall a, b :: 0 <= a < b < |Kept(s)| ==> Kept(s)[a] < Kept(s)[b]
    ensures forall i :: 0 <= i < |s| ==> (i in Kept(s) <==> IsFirst(s, i))
  {
    if |s| > 0 {
      var n := |s| - 1;
      var p := s[..n];
      KeptPositions(p);
      assert forall i :: 0 <= i < n ==> (IsFirst(p, i) <==> IsFirst(s, i));
      assert s[n].receipt in Receipts(p) <==> !IsFirst(s, n) by {
        if s[n].receipt in Receipts(p) {
          var j :| 0 <= j < n && p[j].receipt == s[n].receipt;
          assert s[j].receipt == s[n].receipt;
        }
      }
    }
  }

  /** No receipt number appears twice among the kept payments. */
  lemma FirstOccurrencesDistinct(s: seq<Payment>)
    ensures DistinctReceipts(FirstOccurrences(s))
  {
    KeptPositions(s);
    var f := FirstOccurrences(s);
    var kept := Kept(s);
    forall a, b | 0 <= a < b < |f|
      ensures f[a].receipt != f[b].receipt
    {
      assert kept[b] in kept;
      assert IsFirst(s, kept[b]);
    }
  }

  /** Every receipt number of the input is represented. */
  lemma {:induction false} FirstOccurrencesCover(s: seq<Payment>)
    ensures Receipts(FirstOccurrences(s)) == Receipts(s)
  {
    if |s| > 0 {
      var n := |s| - 1;
      var p := s[..n];
      FirstOccurrencesCover(p);
      assert s == p + [s[n]];
      var tailPart := if s[n].receipt in Receipts(p) then [] else [s[n]];
      assert Receipts(FirstOccurrences(p) + tailPart) == Receipts(FirstOccurrences(p)) + Receipts(tailPart) by {
        var f := FirstOccurrences(p);
        forall x | x in Receipts(f + tailPart)
          ensures x in Receipts(f) + Receipts(tailPart)
        {
          var i :| 0 <= i < |f + tailPart| && (f + tailPart)[i].receipt == x;
          if i >= |f| {
            assert tailPart[i - |f|].receipt == x;
          }
        }
        forall x | x in Receipts(f) + Receipts(tailPart)
          ensures x in Receipts(f + tailPart)
        {
          if x in Receipts(f) {
            var i :| 0 <= i < |f| && f[i].receipt == x;
            assert (f + tailPart)[i].receipt == x;
          } else {
            var i :| 0 <= i < |tailPart| && tailPart[i].receipt == x;
            assert (f + tailPart)[|f| + i].receipt == x;
          }
        }
      }
      assert Receipts(s) == Receipts(p) + {s[n].receipt} by {
        forall x | x in Receipts(s)
          ensures x in Receipts(p) + {s[n].receipt}
        {
          var i :| 0 <= i < |s| && s[i].receipt == x;
          if i < n {
            assert p[i].receipt == x;
          }
        }
        forall x | x in Receipts(p)
          ensures x in Receipts(s)
        {
          var i :| 0 <= i < |p| && p[i].receipt == x;
          assert s[i].receipt == x;
        }
      }
    }
  }

  /** Keeping first occurrences preserves the newest-first order. */
  lemma FirstOccurrencesSorted(s: seq<Payment>)
    requires SortedDesc(s)
    ensures SortedDesc(FirstOccurrences(s))
  {
    KeptPositions(s);
  }

  /** The loop of `GroupBy` + `First`, one pass with a set of receipt numbers seen so far. */
  method FirstPerReceipt(s: seq<Payment>) returns (r: seq<Payment>)
    ensures r == FirstOccurrences(s)
    ensures DistinctReceipts(r) && Receipts(r) == Receipts(s)
  {
    r := [];
    var seen: set<string> := {};
    var i := 0;
    while i < |s|
      invariant 0 <= i <= |s|
      invariant r == FirstOccurrences(s[..i])
      invariant seen == Receipts(s[..i])
    {
      assert s[..i + 1][..i] == s[..i];
      if s[i].receipt !in seen {
        r := r + [s[i]];
      }
      seen := seen + {s[i].receipt};
      assert Receipts(s[..i + 1]) == Receipts(s[..i]) + {s[i].receipt} by {
        var q := s[..i + 1];
        forall x | x in Receipts(q)
          ensures x in Receipts(s[..i]) + {s[i].receipt}
        {
          var j :| 0 <= j < |q| && q[j].receipt == x;
          if j < i {
            assert s[..i][j].receipt == x;
          }
        }
        forall x | x in Receipts(s[..i])
          ensures x in Receipts(q)
        {
          var j :| 0 <= j < i && s[..i][j].receipt == x;
          assert q[j].receipt == x;
        }
        assert q[i].receipt == s[i].receipt;
      }
      i := i + 1;
    }
    assert s[..|s|] == s;
    FirstOccurrencesDistinct(s);
    FirstOccurrencesCover(s);
  }

  datatype HistoryReply = HistoryNotFound | History(entries: seq<Payment>)

  /** The pipeline of `GetHistory`: newest first, the first fifty, then one payment per receipt. */
  function FilteredHistory(h: seq<Payment>): (r: seq<Payment>)
    ensures |r| <= HistoryLimit
    ensures SortedDesc(r)
    ensures DistinctReceipts(r)
    ensures Receipts(r) == Receipts(Take(SortByDateDesc(h), HistoryLimit))
  {
    var top := Take(SortByDateDesc(h), HistoryLimit);
    FirstOccurrencesSorted(top);
    FirstOccurrencesDistinct(top);
    FirstOccurrencesCover(top);
    FirstOccurrences(top)
  }

  /**
   * `GetHistory`. A missing or empty history is 404. Otherwise the reply
   * has at most fifty payments, newest first, no receipt number twice, and
   * every receipt number among the fifty newest payments.
   */
  method GetHistory(history: Option<seq<Payment>>) returns (r: HistoryReply)
    ensures r.HistoryNotFound? <==> history.None? || |history.value| == 0
    ensures r.History? ==>
              var top := Take(SortByDateDesc(history.value), HistoryLimit);
              && r.entries == FilteredHistory(history.value)
              && |r.entries| <= HistoryLimit
              && SortedDesc(r.entries)
              && DistinctReceipts(r.entries)
              && Receipts(r.entries) == Receipts(top)
  {
    if history.None? || |history.value| == 0 {
      return HistoryNotFound;
    }
    var ordered := SortByDateDesc(history.value);
    var top := Take(ordered, HistoryLimit);
    var kept := FirstPerReceipt(top);
    KeptPositions(top);
    FirstOccurrencesSorted(top);
    r := History(kept);
  }

  /**
   * Every payment of the filtered history is the first payment of its
   * receipt among the fifty newest, and the kept payments appear in the
   * same relative order as there.
   */
  lemma FilteredHistoryKeepsFirstInOrder(h: seq<Payment>)
    ensures var top := Take(SortByDateDesc(h), HistoryLimit);
            var f := FilteredHistory(h);
            && |Kept(top)| == |f|
            && (forall k :: 0 <= k < |f| ==> IsFirst(top, Kept(top)[k]) && f[k] == top[Kept(top)[k]])
            && (forall a, b :: 0 <= a < b < |f| ==> Kept(top)[a] < Kept(top)[b])
  {
    var top := Take(SortByDateDesc(h), HistoryLimit);
    KeptPositions(top);
    forall k | 0 <= k < |Kept(top)|
      ensures IsFirst(top, Kept(top)[k])
    {
      assert Kept(top)[k] in Kept(top);
    }
  }
}

=== FILE: tokens.dfy ===
/**
 * The credentials the account services hand out: claim lists, signed access
 * tokens (signing and verification are opaque: a token either carries claims
 * the server signed or does not verify at all) and the numeric
 * password-reset code.
 */
module Tokens {
  import opened Wrappers
  import opened UserStore

  /** The claim types the services write (`ClaimTypes.Name`, `jti`, `UserId`, `ClaimTypes.Role`). */
  datatype ClaimType = Name | Jti | UserId | Role

  datatype Claim = Claim(kind: ClaimType, value: string)

  /**
   * A bearer token as presented to the server: one the server signed, whose
   * claims and expiry can be read back, or one whose structure or signature
   * does not verify under the server's key.
   */
  datatype AccessToken = Signed(claims: seq<Claim>, validTo: Time) | Unverifiable

  /** The token `GenerateJwtTokenAsync` writes: signature validation reads its claims back. */
  function Sign(claims: seq<Claim>, validTo: Time): (t: AccessToken)
    ensures Extract(t) == Some(claims)
  {
    Signed(claims, validTo)
  }

  /**
   * Signature-only validation as the refresh flow configures it: lifetime,
   * issuer, audience and actor are not checked, so `validTo` is never looked at.
   */
  function Extract(t: AccessToken): (r: Option<seq<Claim>>)
    ensures r.None? <==> t.Unverifiable?
    ensures t.Signed? ==> r == Some(t.claims)
  {
    match t
    case Signed(claims, _) => Some(claims)
    case Unverifiable => None
  }

  /** The values of all claims of one type, in claim order. */
  function Values(claims: seq<Claim>, kind: ClaimType): (vs: seq<string>)
    ensures |vs| <= |claims|
  {
    if |claims| == 0 then []
    else (if claims[0].kind == kind then [claims[0].value] else []) + Values(claims[1..], kind)
  }

  /** `FindFirst(type)`: the value of the first claim of that type, if any. */
  function FindFirst(claims: seq<Claim>, kind: ClaimType): (r: Option<string>)
    ensures r.None? <==> forall k :: 0 <= k < |claims| ==> claims[k].kind != kind
    ensures r.Some? ==> exists k :: 0 <= k < |claims| && claims[k] == Claim(kind, r.value)
                                    && forall j :: 0 <= j < k ==> claims[j].kind != kind
  {
    if |claims| == 0 then None
    else if claims[0].kind == kind then Some(claims[0].value)
    else
      var r := FindFirst(claims[1..], kind);
      assert forall j :: 1 <= j < |claims| ==> claims[j] == claims[1..][j - 1];
      r
  }

  function RoleClaims(roles: seq<string>): seq<Claim>
  {
    seq(|roles|, k requires 0 <= k < |roles| => Claim(Role, roles[k]))
  }

  /**
   * The claim list issued at login and on refresh: the user name, a fresh
   * token id, the user id, then one role claim per role the user holds.
   */
  function AuthClaims(u: User, jti: string): (c: seq<Claim>)
    ensures |c| == 3 + |u.roles|
    ensures c[0] == Claim(Name, u.userName) && c[1] == Claim(Jti, jti) && c[2] == Claim(UserId, u.id)
    ensures forall k :: 0 <= k < |u.roles| ==> c[3 + k] == Claim(Role, u.roles[k])
  {
    [Claim(Name, u.userName), Claim(Jti, jti), Claim(UserId, u.id)] + RoleClaims(u.roles)
  }

  lemma ValuesAppend(a: seq<Claim>, b: seq<Claim>, kind: ClaimType)
    ensures Values(a + b, kind) == Values(a, kind) + Values(b, kind)
  {
    if |a| > 0 {
      assert (a + b)[1..] == a[1..] + b;
    } else {
      assert a + b == b;
    }
  }

  lemma {:induction false} RoleClaimsValues(roles: seq<string>, kind: ClaimType)
    ensures Values(RoleClaims(roles), kind) == if kind == Role then roles else []
  {
    if |roles| > 0 {
      assert RoleClaims(roles)[1..] == RoleClaims(roles[1..]);
      RoleClaimsValues(roles[1..], kind);
    }
  }

  /**
   * Reading the issued claims back: exactly one name, one token id and one
   * user-id claim carrying the user's values, and role claims listing
   * exactly the user's roles in order.
   */
  lemma {:induction false} AuthClaimsValues(u: User, jti: string)
    ensures Values(AuthClaims(u, jti), Name) == [u.userName]
    ensures Values(AuthClaims(u, jti), Jti) == [jti]
    ensures Values(AuthClaims(u, jti), UserId) == [u.id]
    ensures Values(AuthClaims(u, jti), Role) == u.roles
    ensures FindFirst(AuthClaims(u, jti), Name) == Some(u.userName)
  {
    var head := [Claim(Name, u.userName), Claim(Jti, jti), Claim(UserId, u.id)];
    forall kind: ClaimType
      ensures Values(AuthClaims(u, jti), kind) == Values(head, kind) + Values(RoleClaims(u.roles), kind)
    {
      ValuesAppend(head, RoleClaims(u.roles), kind);
    }
    RoleClaimsValues(u.roles, Name);
    RoleClaimsValues(u.roles, Jti);
    RoleClaimsValues(u.roles, UserId);
    RoleClaimsValues(u.roles, Role);
    var tail := [Claim(UserId, u.id)];
    assert head[1..][1..] == tail && tail[1..] == [];
    assert Values(tail, Name) == [] && Values(tail, Jti) == [] && Values(tail, UserId) == [u.id];
    assert Values(head[1..], Name) == [] && Values(head[1..], Jti) == [jti];
    assert Values(head[1..], UserId) == [u.id];
    assert Values(tail, Role) == [] && Values(head[1..], Role) == [];
  }

  // ---- password-reset codes -------------------------------------------------

  /** The bounds of `Random.Next(10000000, 99999999)`: lower inclusive, upper exclusive. */
  const ResetCodeLow: nat := 10000000
  const ResetCodeHigh: nat := 99999999

  function DigitChar(d: nat): (c: char)
    requires d < 10
    ensures '0' <= c <= '9'
  {
    (48 + d) as char
  }

  predicate IsDigits(s: string)
  {
    forall k :: 0 <= k < |s| ==> '0' <= s[k] <= '9'
  }

  /** `int.ToString()`: the decimal digits of `n`, most significant first, no sign. */
  function DecimalString(n: nat): (s: string)
    ensures |s| >= 1 && IsDigits(s)
  {
    if n < 10 then [DigitChar(n)] else DecimalString(n / 10) + [DigitChar(n % 10)]
  }

  function ParseDecimal(s: string): nat
    requires IsDigits(s)
  {
    if |s| == 0 then 0 else 10 * ParseDecimal(s[..|s| - 1]) + (s[|s| - 1] as int - 48)
  }

  /** The printed code reads back as the number drawn. */
  lemma {:induction false} DecimalRoundTrip(n: nat)
    ensures ParseDecimal(DecimalString(n)) == n
  {
    if n >= 10 {
      var s := DecimalString(n);
      assert s[..|s| - 1] == DecimalString(n / 10);
      DecimalRoundTrip(n / 10);
    }
  }

  function Pow10(k: nat): (p: nat)
    ensures p >= 1
  {
    if k == 0 then 1 else 10 * Pow10(k - 1)
  }

  lemma {:induction false} DecimalLength(n: nat, k: nat)
    requires Pow10(k) <= n < Pow10(k + 1)
    ensures |DecimalString(n)| == k + 1
  {
    if k > 0 {
      assert Pow10(k) == 10 * Pow10(k - 1);
      assert Pow10(k + 1) == 10 * Pow10(k);
      DecimalLength(n / 10, k - 1);
    }
  }

  /** Every code the generator can draw prints as exactly eight digits and parses back to itself. */
  lemma ResetCodeIsEightDigits(n: nat)
    requires ResetCodeLow <= n < ResetCodeHigh
    ensures |DecimalString(n)| == 8
    ensures ParseDecimal(DecimalString(n)) == n
  {
    assert Pow10(7) == 10000000;
    assert Pow10(8) == 100000000;
    DecimalLength(n, 7);
    DecimalRoundTrip(n);
  }
}

=== FILE: userservice.dfy ===
/**
 * The account service: login, refresh-token rotation, role creation, user
 * registration and password-reset code issue, each a pure step over the
 * user store. Clock readings, token ids, random refresh tokens and random
 * reset codes are parameters; the password hasher is an oracle.
 */
module UserService {
  import opened Wrappers
  import opened UserStore
  import opened Tokens

  /** The `JWT` configuration section: access-token and refresh-token lifetimes in minutes. */
  datatype Config = Config(expiryMinutes: int, refreshTokenExpiry: int)

  datatype Error =
    | InvalidCredentials   // sign-in refused
    | Unauthorized         // refresh refused
    | InternalError        // an exception, caught by the service or escaping to the framework
    | EmailTaken           // registration with an email already in use
    | RegistrationFailed   // the identity library refused to create the user
    | RoleExists           // "Role already exists"
    | InvalidRoleName      // the role validator refused a blank name

  function StatusCode(e: Error): int
  {
    match e
    case InvalidCredentials => 400
    case Unauthorized => 401
    case InternalError => 500
    case EmailTaken => 400
    case RegistrationFailed => 400
    case RoleExists => 400
    case InvalidRoleName => 400
  }

  /** A service reply together with the store as the call leaves it. */
  datatype Step<+T> = Step(reply: Result<T, Error>, store: Store)

  /** `LoginResponseDto`; the refresh flow leaves `Email` unset. */
  datatype LoginResponse = LoginResponse(
    username: string,
    email: Option<string>,
    token: AccessToken,
    tokenExpiration: Time,
    refreshToken: string,
    roles: seq<string>)

  /** The user row after a refresh token has been issued to it. */
  function WithRefreshToken(u: User, token: string, expires: Time): (u': User)
    ensures u'.refreshToken == Some(token) && u'.refreshTokenDate == expires
    ensures u'.id == u.id && u'.userName == u.userName && u'.email == u.email && u'.roles == u.roles
    ensures u'.passwordHash == u.passwordHash && u'.resetToken == u.resetToken
    ensures u'.resetTokenExpires == u.resetTokenExpires
  {
    u.(refreshToken := Some(token), refreshTokenDate := expires)
  }

  // ---- login -------------------------------------------------------------------

  /**
   * `LoginUserAsync`. Sign-in succeeds when a user with that name exists and
   * the password oracle accepts the password against the stored hash; the
   * user then receives an access token over its claims and the fresh refresh
   * token, which is stored on its row with expiry now + `RefreshTokenExpiry`.
   */
  function Login(st: Store, cfg: Config, now: Clock, userName: string, password: string,
                 verify: (string, string) -> bool, jti: string, freshRefresh: string): (r: Step<LoginResponse>)
    ensures r.reply.Err? ==> r.reply.error == InvalidCredentials && r.store == st
    ensures r.reply.Ok? <==>
              && FindByName(st.users, userName).Some?
              && verify(st.users[FindByName(st.users, userName).value].passwordHash, password)
    ensures r.reply.Ok? ==>
              var i := FindByName(st.users, userName).value;
              var u := st.users[i];
              && OnlyRowChanged(st, r.store, i)
              && r.store.users[i] == WithRefreshToken(u, r.reply.value.refreshToken, now + cfg.refreshTokenExpiry)
              && r.reply.value.refreshToken == freshRefresh
              && r.reply.value.username == userName
              && r.reply.value.email == Some(u.email)
              && r.reply.value.roles == u.roles
              && Extract(r.reply.value.token) == Some(AuthClaims(u, jti))
              && r.reply.value.tokenExpiration == now + cfg.expiryMinutes
  {
    match FindByName(st.users, userName)
    case None => Step(Err(InvalidCredentials), st)
    case Some(i) =>
      var u := st.users[i];
      if !verify(u.passwordHash, password) then Step(Err(InvalidCredentials), st)
      else
        var validTo := now + cfg.expiryMinutes;
        var response := LoginResponse(u.userName, Some(u.email), Sign(AuthClaims(u, jti), validTo),
                                      validTo, freshRefresh, u.roles);
        Step(Ok(response), SetUser(st, i, WithRefreshToken(u, freshRefresh, now + cfg.refreshTokenExpiry)))
  }

  /**
   * A login reply does not reveal whether the user name exists: an unknown
   * name and a wrong password produce the same reply and leave the store alone.
   */
  lemma LoginDoesNotRevealUnknownUser(st: Store, cfg: Config, now: Clock, known: string, unknown: string,
                                      password: string, verify: (string, string) -> bool, jti: string, nextToken: string)
    requires FindByName(st.users, unknown).None?
    requires FindByName(st.users, known).Some?
    requires !verify(st.users[FindByName(st.users, known).value].passwordHash, password)
    ensures Login(st, cfg, now, unknown, password, verify, jti, nextToken)
         == Login(st, cfg, now, known, password, verify, jti, nextToken)
         == Step(Err(InvalidCredentials), st)
  {
  }

  /**
   * The claims carried by a login token: the user's name (the claim the
   * refresh flow reads first), its id, one token id, and exactly the roles
   * returned in the reply.
   */
  lemma LoginTokenClaims(st: Store, cfg: Config, now: Clock, userName: string, password: string,
                         verify: (string, string) -> bool, jti: string, nextToken: string)
    requires Login(st, cfg, now, userName, password, verify, jti, nextToken).reply.Ok?
    ensures var resp := Login(st, cfg, now, userName, password, verify, jti, nextToken).reply.value;
            var claims := Extract(resp.token).value;
            && Extract(resp.token).Some?
            && FindFirst(claims, Name) == Some(userName)
            && Values(claims, Name) == [userName]
            && Values(claims, Jti) == [jti]
            && Values(claims, UserId) == [st.users[FindByName(st.users, userName).value].id]
            && Values(claims, Role) == resp.roles
  {
    var i := FindByName(st.users, userName).value;
    AuthClaimsValues(st.users[i], jti);
  }

  lemma LoginKeepsValid(st: Store, cfg: Config, now: Clock, userName: string, password: string,
                        verify: (string, string) -> bool, jti: string, nextToken: string)
    requires Valid(st)
    ensures Valid(Login(st, cfg, now, userName, password, verify, jti, nextToken).store)
  {
  }

  // ---- refresh -----------------------------------------------------------------

  /**
   * The refresh check: the presented refresh token equals the stored one
   * (an absent stored token equals an absent presented one) and the stored
   * expiry is not earlier than now, so an expiry equal to now passes. A row
   * that was never given a refresh token still holds `MinDate` as its
   * expiry and is always refused.
   */
  function RefreshTokenAccepted(u: User, presented: Option<string>, now: Clock): (accepted: bool)
    ensures accepted ==> u.refreshToken == presented && now <= u.refreshTokenDate
    ensures u.refreshToken == presented && now <= u.refreshTokenDate ==> accepted
    ensures u.refreshTokenDate == MinDate ==> !accepted
  {
    u.refreshToken == presented && !(u.refreshTokenDate < now)
  }

  /**
   * `RefreshTokenAsync`. The presented access token is validated for its
   * signature only; a token that does not verify makes the validator throw,
   * which the service's catch-all turns into a 500. The first Name claim
   * (the user name) is then looked up as an EMAIL. On success the user's
   * refresh token is rotated to `freshRefresh`.
   */
  function Refresh(st: Store, cfg: Config, now: Clock, token: AccessToken, presented: Option<string>,
                   jti: string, freshRefresh: string): (r: Step<LoginResponse>)
    ensures r.reply.Err? ==> r.store == st
    ensures r.reply == Err(InternalError) <==> token.Unverifiable?
    ensures r.reply.Ok? <==>
              && token.Signed?
              && FindFirst(token.claims, Name).Some?
              && FindByEmail(st.users, FindFirst(token.claims, Name).value).Some?
              && RefreshTokenAccepted(st.users[FindByEmail(st.users, FindFirst(token.claims, Name).value).value],
                                      presented, now)
    ensures r.reply.Err? && !token.Unverifiable? ==> r.reply.error == Unauthorized
    ensures r.reply.Ok? ==>
              var i := FindByEmail(st.users, FindFirst(token.claims, Name).value).value;
              var u := st.users[i];
              && OnlyRowChanged(st, r.store, i)
              && r.store.users[i] == WithRefreshToken(u, r.reply.value.refreshToken, now + cfg.refreshTokenExpiry)
              && r.reply.value.refreshToken == freshRefresh
              && r.reply.value.username == u.userName
              && r.reply.value.email.None?
              && r.reply.value.roles == u.roles
              && Extract(r.reply.value.token) == Some(AuthClaims(u, jti))
              && r.reply.value.tokenExpiration == now + cfg.expiryMinutes
  {
    match Extract(token)
    case None => Step(Err(InternalError), st)
    case Some(claims) =>
      match FindFirst(claims, Name)
      case None => Step(Err(Unauthorized), st)
      case Some(email) =>
        match FindByEmail(st.users, email)
        case None => Step(Err(Unauthorized), st)
        case Some(i) =>
          var u := st.users[i];
          if !RefreshTokenAccepted(u, presented, now) then Step(Err(Unauthorized), st)
          else
            var validTo := now + cfg.expiryMinutes;
            var response := LoginResponse(u.userName, None, Sign(AuthClaims(u, jti), validTo),
                                          validTo, freshRefresh, u.roles);
            Step(Ok(response), SetUser(st, i, WithRefreshToken(u, freshRefresh, now + cfg.refreshTokenExpiry)))
  }

  /** The access token's own expiry plays no part in a refresh. */
  lemma RefreshIgnoresAccessTokenExpiry(st: Store, cfg: Config, now: Clock, claims: seq<Claim>,
                                        expired: Time, live: Time, presented: Option<string>,
                                        jti: string, nextToken: string)
    requires expired < now <= live
    ensures Refresh(st, cfg, now, Sign(claims, expired), presented, jti, nextToken)
         == Refresh(st, cfg, now, Sign(claims, live), presented, jti, nextToken)
  {
  }

  /** A stored expiry equal to the current instant is still accepted; one a minute earlier is not. */
  lemma RefreshExpiryBoundary(st: Store, cfg: Config, now: Clock, claims: seq<Claim>, validTo: Time,
                              presented: Option<string>, jti: string, nextToken: string)
    requires FindFirst(claims, Name).Some?
    requires FindByEmail(st.users, FindFirst(claims, Name).value).Some?
    requires st.users[FindByEmail(st.users, FindFirst(claims, Name).value).value].refreshToken == presented
    ensures var u := st.users[FindByEmail(st.users, FindFirst(claims, Name).value).value];
            && (u.refreshTokenDate == now ==> Refresh(st, cfg, now, Sign(claims, validTo), presented, jti, nextToken).reply.Ok?)
            && (u.refreshTokenDate == now - 1 ==> Refresh(st, cfg, now, Sign(claims, validTo), presented, jti, nextToken).reply == Err(Unauthorized))
  {
  }

  /**
   * Because the Name claim holds the user name but is looked up as an email,
   * a refresh can only succeed when some user's email equals that user name.
   */
  lemma RefreshNeedsEmailEqualToUserName(st: Store, cfg: Config, now: Clock, token: AccessToken,
                                         presented: Option<string>, jti: string, nextToken: string)
    requires Refresh(st, cfg, now, token, presented, jti, nextToken).reply.Ok?
    ensures token.Signed? && FindFirst(token.claims, Name).Some?
    ensures exists j :: 0 <= j < |st.users| && st.users[j].email == FindFirst(token.claims, Name).value
  {
  }

  /** Rows that keep their emails keep the answer of every email lookup. */
  lemma FindByEmailStable(users: seq<User>, users': seq<User>, email: string)
    requires |users'| == |users|
    requires forall j :: 0 <= j < |users| ==> users'[j].email == users[j].email
    ensures FindByEmail(users', email) == FindByEmail(users, email)
  {
  }

  /**
   * Rotation: once a refresh has replaced the stored token with a different
   * fresh one, presenting the old refresh token again with the same access
   * token is refused.
   */
  lemma RefreshRotationRevokesOldToken(st: Store, cfg: Config, now: Clock, later: Clock, token: AccessToken,
                                       presented: Option<string>, jti: string, nextToken: string,
                                       jti2: string, nextToken2: string)
    requires Refresh(st, cfg, now, token, presented, jti, nextToken).reply.Ok?
    requires presented != Some(nextToken)
    ensures Refresh(Refresh(st, cfg, now, token, presented, jti, nextToken).store, cfg, later, token, presented, jti2, nextToken2).reply
         == Err(Unauthorized)
  {
  }

  /**
   * Login followed by a refresh with the tokens it returned, before the
   * refresh token expires: provided no other user holds the fresh refresh
   * token, the refresh succeeds exactly when the user's email equals its
   * user name, and then it hands out the next fresh token.
   */
  lemma LoginThenRefresh(st: Store, cfg: Config, now: Clock, later: Clock, userName: string, password: string,
                         verify: (string, string) -> bool, jti: string, nextToken: string, jti2: string, nextToken2: string)
    requires Valid(st)
    requires Login(st, cfg, now, userName, password, verify, jti, nextToken).reply.Ok?
    requires forall j :: 0 <= j < |st.users| && st.users[j].userName != userName ==> st.users[j].refreshToken != Some(nextToken)
    requires later <= now + cfg.refreshTokenExpiry
    ensures var login := Login(st, cfg, now, userName, password, verify, jti, nextToken);
            var refresh := Refresh(login.store, cfg, later, login.reply.value.token, Some(nextToken), jti2, nextToken2);
            var u := st.users[FindByName(st.users, userName).value];
            && (refresh.reply.Ok? <==> u.email == userName)
            && (refresh.reply.Ok? ==> refresh.reply.value.refreshToken == nextToken2 && refresh.reply.value.roles == u.roles)
  {
  }

  lemma RefreshKeepsValid(st: Store, cfg: Config, now: Clock, token: AccessToken, presented: Option<string>,
                          jti: string, nextToken: string)
    requires Valid(st)
    ensures Valid(Refresh(st, cfg, now, token, presented, jti, nextToken).store)
  {
  }

  // ---- roles and registration ------------------------------------------------------

  /**
   * `CreateRoleAsync`: refuses a role that exists; the identity library's
   * role validator then refuses a blank name; otherwise exactly that role is
   * registered.
   */
  function CreateRole(st: Store, roleName: string): (r: Step<()>)
    ensures r.reply == Err(RoleExists) <==> roleName in st.roles
    ensures r.reply == Err(InvalidRoleName) <==> roleName !in st.roles && Blank(roleName)
    ensures r.reply.Ok? <==> roleName !in st.roles && !Blank(roleName)
    ensures r.reply.Err? ==> r.store == st
    ensures r.reply.Ok? ==> r.store.roles == st.roles + {roleName} && r.store.users == st.users
  {
    if roleName in st.roles then Step(Err(RoleExists), st)
    else if Blank(roleName) then Step(Err(InvalidRoleName), st)
    else Step(Ok(()), st.(roles := st.roles + {roleName}))
  }

  /**
   * The per-role loop of registration: each requested role the user does not
   * hold yet is appended; a repeated one makes `AddToRoleAsync` fail, which
   * the loop ignores.
   */
  function AddRoles(held: seq<string>, requested: seq<string>): (r: seq<string>)
    ensures |r| >= |held| && r[..|held|] == held
    ensures forall x :: x in r <==> x in held || x in requested
    ensures Distinct(held) ==> Distinct(r)
    decreases |requested|
  {
    if |requested| == 0 then held
    else if requested[0] in held then AddRoles(held, requested[1..])
    else AddRoles(held + [requested[0]], requested[1..])
  }

  /**
   * The characters the identity library's default user validator allows in a
   * user name (the account setup leaves `AllowedUserNameCharacters` as is).
   */
  const UserNameCharacters: string := "abcdefghijklmnopqrstuvwxyzABCDEFGHIJKLMNOPQRSTUVWXYZ0123456789-._@+"

  /** The default user validator's name check: not blank, and only allowed characters. */
  predicate ValidUserName(name: string)
  {
    |name| > 0 && forall k :: 0 <= k < |name| ==> name[k] in UserNameCharacters
  }

  /** The position of the first blank role name, or the length when there is none. */
  function FirstBlank(roles: seq<string>): (k: nat)
    ensures k <= |roles|
    ensures forall j :: 0 <= j < k ==> !Blank(roles[j])
    ensures k < |roles| ==> Blank(roles[k])
  {
    if |roles| == 0 || Blank(roles[0]) then 0
    else 1 + FirstBlank(roles[1..])
  }

  /** `CreateUserDto` without its password, which goes to the hasher oracle. */
  datatype NewUser = NewUser(userName: string, email: string, firstName: string, lastName: string, roles: seq<string>)

  /**
   * `RegisterUserAsync`. An email already in use is refused first. The
   * identity library's `CreateAsync` then refuses a taken or invalid user
   * name, or a password its policy rejects (`hash` is None). Otherwise the
   * user is stored with status 1, and the requested roles are created where
   * missing and assigned once each, in request order. A blank role name makes
   * the assignment throw: the call ends in a 500, with the user already
   * stored holding the roles requested before it.
   */
  function Register(st: Store, dto: NewUser, now: Clock, freshId: string, hash: Option<string>): (r: Step<()>)
    requires forall j :: 0 <= j < |st.users| ==> st.users[j].id != freshId
    ensures r.reply == Err(EmailTaken) <==> exists j :: 0 <= j < |st.users| && st.users[j].email == dto.email
    ensures r.reply == Err(RegistrationFailed) <==>
              && (forall j :: 0 <= j < |st.users| ==> st.users[j].email != dto.email)
              && ((exists j :: 0 <= j < |st.users| && st.users[j].userName == dto.userName)
                  || !ValidUserName(dto.userName) || hash.None?)
    ensures r.reply == Err(EmailTaken) || r.reply == Err(RegistrationFailed) ==> r.store == st
    ensures r.reply.Ok? <==>
              && (forall j :: 0 <= j < |st.users| ==> st.users[j].email != dto.email && st.users[j].userName != dto.userName)
              && ValidUserName(dto.userName) && hash.Some?
              && forall k :: 0 <= k < |dto.roles| ==> !Blank(dto.roles[k])
    ensures r.reply.Err? ==> r.reply.error in {EmailTaken, RegistrationFailed, InternalError}
    ensures r.reply.Ok? || r.reply == Err(InternalError) ==>
              var granted := dto.roles[..FirstBlank(dto.roles)];
              && |r.store.users| == |st.users| + 1
              && r.store.users[..|st.users|] == st.users
              && r.store.roles == st.roles + set x | x in granted
              && var u := r.store.users[|st.users|];
                 && u.id == freshId && u.userName == dto.userName && u.email == dto.email
                 && u.status == 1 && u.createdDate == now && u.passwordHash == hash.value
                 && (forall x :: x in u.roles <==> x in granted) && Distinct(u.roles)
                 && u.refreshToken.None? && u.resetToken.None?
    ensures r.reply.Ok? ==> forall x :: x in r.store.users[|st.users|].roles <==> x in dto.roles
  {
    if FindByEmail(st.users, dto.email).Some? then Step(Err(EmailTaken), st)
    else if FindByName(st.users, dto.userName).Some? || !ValidUserName(dto.userName) || hash.None? then
      Step(Err(RegistrationFailed), st)
    else
      var k := FirstBlank(dto.roles);
      var granted := dto.roles[..k];
      var u := User(freshId, dto.userName, dto.email, dto.firstName, dto.lastName, 1, now, hash.value,
                    AddRoles([], granted), None, MinDate, None, None);
      var stored := Store(st.users + [u], st.roles + set x | x in granted);
      if k < |dto.roles| then Step(Err(InternalError), stored)
      else
        assert granted == dto.roles;
        Step(Ok(()), stored)
  }

  /**
   * A freshly registered user can log in with a password the oracle accepts
   * for the stored hash, and receives its email and exactly the requested roles.
   */
  lemma RegisterThenLogin(st: Store, dto: NewUser, now: Clock, freshId: string, hash: Option<string>,
                          cfg: Config, later: Clock, password: string, verify: (string, string) -> bool,
                          jti: string, nextToken: string)
    requires forall j :: 0 <= j < |st.users| ==> st.users[j].id != freshId
    requires Register(st, dto, now, freshId, hash).reply.Ok?
    requires verify(hash.value, password)
    ensures var st1 := Register(st, dto, now, freshId, hash).store;
            var login := Login(st1, cfg, later, dto.userName, password, verify, jti, nextToken);
            && login.reply.Ok?
            && login.reply.value.email == Some(dto.email)
            && (forall x :: x in login.reply.value.roles <==> x in dto.roles)
  {
  }

  lemma RegisterKeepsValid(st: Store, dto: NewUser, now: Clock, freshId: string, hash: Option<string>)
    requires Valid(st)
    requires forall j :: 0 <= j < |st.users| ==> st.users[j].id != freshId
    ensures Valid(Register(st, dto, now, freshId, hash).store)
  {
    var r := Register(st, dto, now, freshId, hash);
    if r.store != st {
      var k := FirstBlank(dto.roles);
      var granted := dto.roles[..k];
      var u := r.store.users[|st.users|];
      assert r.store == Store(st.users + [u], st.roles + set x | x in granted);
      assert forall x :: x in granted ==> !Blank(x) by {
        forall x | x in granted
          ensures !Blank(x)
        {
          var j :| 0 <= j < k && granted[j] == x;
          assert dto.roles[j] == x;
        }
      }
      AppendUserKeepsValid(st, u, set x | x in granted);
    }
  }

  lemma CreateRoleKeepsValid(st: Store, roleName: string)
    requires Valid(st)
    ensures Valid(CreateRole(st, roleName).store)
  {
  }

  // ---- password reset codes ----------------------------------------------------

  /** Minutes a password-reset code stays usable. */
  const ResetCodeLifetime: int := 15

  datatype Issued = Issued(token: Option<string>, store: Store)

  /**
   * `GeneratePasswordResetTokenAsync`. `code` is the draw of
   * `Random.Next(10000000, 99999999)`. An unknown email yields no code and
   * no change; otherwise the printed code is stored on the user with an
   * expiry fifteen minutes from now.
   */
  function GenerateResetToken(st: Store, email: string, now: Clock, code: nat): (r: Issued)
    requires ResetCodeLow <= code < ResetCodeHigh
    ensures r.token.None? <==> forall j :: 0 <= j < |st.users| ==> st.users[j].email != email
    ensures r.token.None? ==> r.store == st
    ensures r.token.Some? ==>
              && |r.token.value| == 8 && IsDigits(r.token.value)
              && ParseDecimal(r.token.value) == code
              && var i := FindByEmail(st.users, email).value;
                 && OnlyRowChanged(st, r.store, i)
                 && r.store.users[i] == st.users[i].(resetToken := r.token,
                                                      resetTokenExpires := Some(now + ResetCodeLifetime))
  {
    match FindByEmail(st.users, email)
    case None => Issued(None, st)
    case Some(i) =>
      ResetCodeIsEightDigits(code);
      var token := DecimalString(code);
      Issued(Some(token), SetUser(st, i, st.users[i].(resetToken := Some(token),
                                                       resetTokenExpires := Some(now + ResetCodeLifetime))))
  }
}

=== FILE: userstore.dfy ===
/**
 * The user and role tables that the identity library keeps for the account
 * services: one row per user (with its role memberships, refresh-token state
 * and password-reset state) and the set of registered role names.
 */
module UserStore {
  import opened Wrappers

  /** Instants are whole minutes; `now` is always supplied by the caller. */
  type Time = int

  /** The value a non-nullable `DateTime` column holds before it is first written. */
  const MinDate: Time := 0

  /** A reading of the server clock (`DateTime.UtcNow`), always later than `DateTime.MinValue`. */
  type Clock = t: Time | t > MinDate witness MinDate + 1

  datatype User = User(
    id: string,
    userName: string,
    email: string,
    firstName: string,
    lastName: string,
    status: int,
    createdDate: Time,
    passwordHash: string,
    roles: seq<string>,
    refreshToken: Option<string>,
    refreshTokenDate: Time,
    resetToken: Option<string>,
    resetTokenExpires: Option<Time>)

  datatype Store = Store(users: seq<User>, roles: set<string>)

  /** Index of the first user satisfying `p`, as a table scan would find it. */
  function Find(users: seq<User>, p: User -> bool): (r: Option<nat>)
    ensures r.Some? ==> r.value < |users| && p(users[r.value])
    ensures r.Some? ==> forall j :: 0 <= j < r.value ==> !p(users[j])
    ensures r.None? <==> forall j :: 0 <= j < |users| ==> !p(users[j])
  {
    if |users| == 0 then None
    else if p(users[0]) then Some(0)
    else match Find(users[1..], p)
      case None => None
      case Some(k) => Some(k + 1)
  }

  function FindById(users: seq<User>, id: string): (r: Option<nat>)
    ensures r.Some? ==> r.value < |users| && users[r.value].id == id
    ensures r.None? <==> forall j :: 0 <= j < |users| ==> users[j].id != id
  {
    Find(users, (u: User) => u.id == id)
  }

  function FindByName(users: seq<User>, name: string): (r: Option<nat>)
    ensures r.Some? ==> r.value < |users| && users[r.value].userName == name
    ensures r.None? <==> forall j :: 0 <= j < |users| ==> users[j].userName != name
  {
    Find(users, (u: User) => u.userName == name)
  }

  /**
   * `FindByEmailAsync`. The library's query expects at most one match; the
   * first match is taken here, which is the same on a valid table.
   */
  function FindByEmail(users: seq<User>, email: string): (r: Option<nat>)
    ensures r.Some? ==> r.value < |users| && users[r.value].email == email
    ensures r.None? <==> forall j :: 0 <= j < |users| ==> users[j].email != email
  {
    Find(users, (u: User) => u.email == email)
  }

  /** `char.IsWhiteSpace`: the Latin-1 white-space controls and the Unicode space, line and paragraph separators. */
  predicate IsWhiteSpace(c: char)
  {
    var n := c as int;
    || (9 <= n <= 13) || n == 0x20 || n == 0x85 || n == 0xA0 || n == 0x1680
    || (0x2000 <= n <= 0x200A) || n == 0x2028 || n == 0x2029 || n == 0x202F || n == 0x205F || n == 0x3000
  }

  /** `string.IsNullOrWhiteSpace` on a non-null string. */
  predicate Blank(s: string)
  {
    forall k :: 0 <= k < |s| ==> IsWhiteSpace(s[k])
  }

  ghost predicate Distinct(xs: seq<string>)
  {
    forall i, j :: 0 <= i < j < |xs| ==> xs[i] != xs[j]
  }

  /**
   * The table invariant: ids, user names and emails are unique (the primary
   * key, the unique user-name index, and the registration check on emails),
   * a user holds each role at most once (the composite key of the user-role
   * table) and only registered roles, and no registered role name is blank
   * (the identity library's role validator refuses those).
   */
  ghost predicate Valid(st: Store)
  {
    && (forall i, j :: 0 <= i < j < |st.users| ==>
          && st.users[i].id != st.users[j].id
          && st.users[i].userName != st.users[j].userName
          && st.users[i].email != st.users[j].email)
    && (forall i :: 0 <= i < |st.users| ==> Distinct(st.users[i].roles))
    && (forall i, r :: 0 <= i < |st.users| && r in st.users[i].roles ==> r in st.roles)
    && (forall r :: r in st.roles ==> !Blank(r))
  }

  /** `st'` differs from `st` at most in the row at index `i`. */
  ghost predicate OnlyRowChanged(st: Store, st': Store, i: nat)
  {
    && |st'.users| == |st.users|
    && st'.roles == st.roles
    && forall j :: 0 <= j < |st.users| && j != i ==> st'.users[j] == st.users[j]
  }

  /** Writes back one row of the user table (the `SaveChanges` of one entity). */
  function SetUser(st: Store, i: nat, u: User): (st': Store)
    requires i < |st.users|
    ensures OnlyRowChanged(st, st', i)
    ensures st'.users[i] == u
  {
    st.(users := st.users[i := u])
  }

  /**
   * Rewriting one row keeps the table valid as long as the row keeps its
   * key columns and its role list.
   */
  lemma SetUserKeepsValid(st: Store, i: nat, u: User)
    requires Valid(st)
    requires i < |st.users|
    requires u.id == st.users[i].id && u.userName == st.users[i].userName
    requires u.email == st.users[i].email && u.roles == st.users[i].roles
    ensures Valid(SetUser(st, i, u))
  {
  }

  /**
   * Appending a row whose keys are new, whose roles are distinct and
   * registered once `added` is, keeps the table valid when the added role
   * names are not blank.
   */
  lemma AppendUserKeepsValid(st: Store, u: User, added: set<string>)
    requires Valid(st)
    requires forall j :: 0 <= j < |st.users| ==>
               st.users[j].id != u.id && st.users[j].userName != u.userName && st.users[j].email != u.email
    requires Distinct(u.roles)
    requires forall x :: x in u.roles ==> x in st.roles + added
    requires forall x :: x in added ==> !Blank(x)
    ensures Valid(Store(st.users + [u], st.roles + added))
  {
    var users := st.users + [u];
    assert forall j :: 0 <= j < |st.users| ==> users[j] == st.users[j];
  }

  /** Rows that keep their ids keep the answer of every id lookup. */
  lemma FindByIdStable(users: seq<User>, users': seq<User>, id: string)
    requires |users'| == |users|
    requires forall j :: 0 <= j < |users| ==> users'[j].id == users[j].id
    ensures FindById(users', id) == FindById(users, id)
  {
  }

  /** Under the invariant, a user found by email is the only user with that email. */
  lemma EmailIdentifiesUser(st: Store, i: nat, j: nat)
    requires Valid(st)
    requires i < |st.users| && j < |st.users|
    requires st.users[i].email == st.users[j].email
    ensures i == j
  {
  }
}

=== FILE: water.dfy ===
/**
 * The water-schedule registrations: each registration carries a date and
 * observations and is linked to the neighbourhoods it covers through a
 * relation table whose key is the pair (registration id, neighbourhood id).
 */
module RegistrationWater {
  import opened Wrappers

  type Guid = string
  type Time = int

  datatype Registration = Registration(id: Guid, date: Time, observations: string)

  /**
   * Registrations by id, the relation rows as (registration id,
   * neighbourhood id) pairs, and the ids of the existing neighbourhoods.
   */
  datatype WaterStore = WaterStore(
    registrations: map<Guid, Registration>,
    relations: set<(Guid, Guid)>,
    neighborhoods: set<Guid>)

  /** `RegistrationWaterCreateDto`; the neighbourhood id list may be null. */
  datatype Request = Request(date: Time, observations: string, neighborhoodIds: Option<seq<Guid>>)

  /** A registration as returned to clients, with the neighbourhoods it covers. */
  datatype View = View(registration: Registration, neighborhoods: set<Guid>)

  datatype Error = NotFound | ServerError

  function StatusCode(e: Error): int
  {
    match e
    case NotFound => 404
    case ServerError => 500
  }

  datatype Step<+T> = Step(reply: Result<T, Error>, store: WaterStore)

  /**
   * The store invariant: registrations are stored under their own id, and
   * every relation row refers to an existing registration and an existing
   * neighbourhood (both foreign keys are required).
   */
  ghost predicate Valid(st: WaterStore)
  {
    && (forall id :: id in st.registrations ==> st.registrations[id].id == id)
    && (forall p :: p in st.relations ==> p.0 in st.registrations && p.1 in st.neighborhoods)
  }

  /** The neighbourhoods a registration is linked to. */
  function Linked(rels: set<(Guid, Guid)>, id: Guid): (r: set<Guid>)
    ensures forall n :: n in r <==> (id, n) in rels
  {
    set p | p in rels && p.0 == id :: p.1
  }

  /** The relation rows of every registration except `id`. */
  function Others(rels: set<(Guid, Guid)>, id: Guid): (r: set<(Guid, Guid)>)
    ensures forall p :: p in r <==> p in rels && p.0 != id
  {
    set p | p in rels && p.0 != id
  }

  /** One relation row per supplied neighbourhood id. */
  function Rows(id: Guid, ids: seq<Guid>): (r: set<(Guid, Guid)>)
    ensures forall p :: p in r <==> p.0 == id && p.1 in ids
  {
    set n | n in ids :: (id, n)
  }

  /** A null list and an empty list both mean "no neighbourhoods". */
  function Supplied(ids: Option<seq<Guid>>): seq<Guid>
  {
    match ids
    case None => []
    case Some(xs) => xs
  }

  predicate NoDuplicates(xs: seq<Guid>)
  {
    forall i, j :: 0 <= i < j < |xs| ==> xs[i] != xs[j]
  }

  /**
   * Saving relation rows succeeds when every neighbourhood exists (foreign
   * key) and no pair is added twice (composite key).
   */
  predicate RowsAccepted(st: WaterStore, ids: seq<Guid>)
  {
    && NoDuplicates(ids)
    && forall k :: 0 <= k < |ids| ==> ids[k] in st.neighborhoods
  }

  /** `GetByIdAsync`: 404 for an unknown id, else the registration and its neighbourhoods. */
  function GetById(st: WaterStore, id: Guid): (r: Result<View, Error>)
    ensures r.Err? <==> id !in st.registrations
    ensures r.Err? ==> r.error == NotFound
    ensures r.Ok? ==> r.value.registration == st.registrations[id]
                      && forall n :: n in r.value.neighborhoods <==> (id, n) in st.relations
  {
    if id !in st.registrations then Err(NotFound)
    else Ok(View(st.registrations[id], Linked(st.relations, id)))
  }

  /**
   * `CreateAsync`. The registration is saved under `freshId` first; the
   * relation rows are saved afterwards in a second save. When that second
   * save fails the reply is a 500, yet the registration stays stored
   * without any relations.
   */
  function Create(st: WaterStore, req: Request, freshId: Guid): (r: Step<Registration>)
    requires freshId !in st.registrations
    ensures freshId in r.store.registrations
    ensures r.store.registrations == st.registrations[freshId := Registration(freshId, req.date, req.observations)]
    ensures r.store.neighborhoods == st.neighborhoods
    ensures r.reply.Err? ==> r.reply.error == ServerError && r.store.relations == st.relations
    ensures r.reply.Ok? <==> RowsAccepted(st, Supplied(req.neighborhoodIds))
    ensures r.reply.Ok? ==>
              && r.reply.value == Registration(freshId, req.date, req.observations)
              && forall p :: p in r.store.relations <==>
                   p in st.relations || (p.0 == freshId && p.1 in Supplied(req.neighborhoodIds))
  {
    var reg := Registration(freshId, req.date, req.observations);
    var saved := st.(registrations := st.registrations[freshId := reg]);
    var ids := Supplied(req.neighborhoodIds);
    if |ids| == 0 then Step(Ok(reg), saved)
    else if !RowsAccepted(st, ids) then Step(Err(ServerError), saved)
    else Step(Ok(reg), saved.(relations := st.relations + Rows(freshId, ids)))
  }

  /**
   * `UpdateAsync`. An unknown id is 404. Otherwise the date and observations
   * are overwritten and the registration's relation rows are replaced by one
   * row per supplied id, in one save; a failing save is a 500 and keeps the
   * store as it was.
   */
  function Update(st: WaterStore, id: Guid, req: Request): (r: Step<Registration>)
    ensures r.reply.Err? ==> r.store == st
    ensures r.reply == Err(NotFound) <==> id !in st.registrations
    ensures r.reply.Ok? <==> id in st.registrations && RowsAccepted(st, Supplied(req.neighborhoodIds))
    ensures r.reply.Ok? ==>
              && r.reply.value == st.registrations[id].(date := req.date, observations := req.observations)
              && r.store.registrations == st.registrations[id := r.reply.value]
              && r.store.neighborhoods == st.neighborhoods
              && (forall n :: (id, n) in r.store.relations <==> n in Supplied(req.neighborhoodIds))
              && forall p: (Guid, Guid) :: p.0 != id ==> (p in r.store.relations <==> p in st.relations)
  {
    if id !in st.registrations then Step(Err(NotFound), st)
    else
      var ids := Supplied(req.neighborhoodIds);
      if !RowsAccepted(st, ids) then Step(Err(ServerError), st)
      else
        var reg := st.registrations[id].(date := req.date, observations := req.observations);
        Step(Ok(reg), WaterStore(st.registrations[id := reg], Others(st.relations, id) + Rows(id, ids), st.neighborhoods))
  }

  /**
   * `DeleteAsync`. An unknown id is 404. Otherwise the registration and all
   * of its relation rows are removed; other registrations keep theirs.
   */
  function Delete(st: WaterStore, id: Guid): (r: Step<bool>)
    ensures r.reply.Err? <==> id !in st.registrations
    ensures r.reply.Err? ==> r.reply.error == NotFound && r.store == st
    ensures r.reply.Ok? ==>
              && r.reply.value
              && r.store.registrations == st.registrations - {id}
              && r.store.neighborhoods == st.neighborhoods
              && forall p :: p in r.store.relations <==> p in st.relations && p.0 != id
  {
    if id !in st.registrations then Step(Err(NotFound), st)
    else Step(Ok(true), WaterStore(st.registrations - {id}, Others(st.relations, id), st.neighborhoods))
  }

  /** Every operation keeps the store invariant. */
  lemma OperationsKeepValid(st: WaterStore, req: Request, freshId: Guid, id: Guid)
    requires Valid(st)
    requires freshId !in st.registrations
    ensures Valid(Create(st, req, freshId).store)
    ensures Valid(Update(st, id, req).store)
    ensures Valid(Delete(st, id).store)
  {
  }

  /**
   * Reading a registration back after a successful update shows exactly the
   * supplied neighbourhoods and the new date and observations.
   */
  lemma UpdateThenGet(st: WaterStore, id: Guid, req: Request)
    requires Update(st, id, req).reply.Ok?
    ensures GetById(Update(st, id, req).store, id).Ok?
    ensures GetById(Update(st, id, req).store, id).value.neighborhoods == set n | n in Supplied(req.neighborhoodIds)
    ensures GetById(Update(st, id, req).store, id).value.registration.date == req.date
    ensures GetById(Update(st, id, req).store, id).value.registration.observations == req.observations
  {
  }

  /** Applying the same update twice has the effect of applying it once. */
  lemma UpdateIdempotent(st: WaterStore, id: Guid, req: Request)
    requires Update(st, id, req).reply.Ok?
    ensures Update(Update(st, id, req).store, id, req) == Update(st, id, req)
  {
  }

  /**
   * A creation whose relation rows are refused still leaves the new
   * registration in the store although the reply is a 500.
   */
  lemma FailedCreateKeepsRegistration(st: WaterStore, req: Request, freshId: Guid)
    requires Valid(st)
    requires freshId !in st.registrations
    requires req.neighborhoodIds.Some? && |req.neighborhoodIds.value| > 0
    requires req.neighborhoodIds.value[0] !in st.neighborhoods
    ensures Create(st, req, freshId).reply == Err(ServerError)
    ensures GetById(Create(st, req, freshId).store, freshId) == Ok(View(Registration(freshId, req.date, req.observations), {}))
  {
    var st1 := Create(st, req, freshId).store;
    assert Linked(st1.relations, freshId) == {};
  }
}

=== FILE: wrappers.dfy ===
/** Failure-compatible helper datatypes shared by every module of the model. */
module Wrappers {

  /** A value that may be absent: the model's stand-in for a C# null. */
  datatype Option<+T> = None | Some(value: T)

  /** The outcome of a service call: a payload, or the error the caller is told about. */
  datatype Result<+T, +E> = Ok(value: T) | Err(error: E)
}
